=== FILE: README.md ===
# BlauTech Admin — a verified model of the dashboard's logic

BlauTech Admin is a Next.js admin dashboard for events, hackathons,
scholarships, student clubs and signups, backed by a hosted Postgres
(Supabase). This project models its decision logic in Dafny and proves what
that logic promises. The logic covers:

- the data client in `lib/api.ts`: the session checks, error
  classification, the `updated_at` retry, counts that never throw, and the
  per-table wrappers;
- the search boxes and the chronological "by date" views of the list pages;
- the badge, colour and label tables;
- the dashboard's stat cards and calendar data;
- the month calendar;
- the two entry forms, `EventForm` and `StudentClubForm`.

The backend is an input value: a `Backend` is one reply function per kind of
query. Every data-client operation returns the queries it issued together
with its outcome. Statements such as "no query is sent" and "the update is
retried exactly once" can therefore be written down and proved.

Instants are integers: milliseconds on the local wall clock. A day is a day
number. URL validity (`new URL`) and the date library (`new Date(s)`,
`toISOString`) are function parameters. Lower- and upper-casing are ASCII.

Modules, one per file:

| file | module | models |
|---|---|---|
| core.dfy | Core | `Option`, `Array.prototype.filter`, the stable `sort`, `slice(0, n)`, `Array.from(new Set(..))` |
| text.dfy | Text | `trim`, `toLowerCase`, `includes`, `split`, `join`, `replace` (first match), `padStart`, `parseInt` |
| time.dfy | Time | days, `setHours`, `getHours`/`getMinutes`, `getDay`, `startOfWeek`/`endOfWeek` |
| records.dfy | Records | the rows the pages read, with optional fields and `a \|\| b` fallbacks |
| api.dfy | Api | `lib/api.ts` |
| search.dfy | Search | the shared search predicate of the list pages |
| chronology.dfy | Chronology | grouping by start day and sorting within a day |
| badges.dfy | Badges | lookup with a default entry, category and format labels |
| hackathons.dfy, scholarships.dfy, events.dfy, student_clubs.dfy | Hackathons, Scholarships, Events, StudentClubs | the four list pages |
| dashboard.dfy | Dashboard | `app/dashboard/page.tsx` |
| calendar.dfy | Calendar | `components/Calendar.tsx` |
| forms.dfy, event_form.dfy, club_form.dfy | Forms, EventForm, ClubForm | the two forms |

Two behaviours of the source are worth stating plainly:

- When a record has no start time, `combineDateTime` returns the stored
  date unchanged. It does not move the date to midnight.
- Records of the same day with equal sort keys are not in an arbitrary
  order. `Array.prototype.sort` is stable, so they keep the order the
  backend returned them in (newest first).

## Model

| member | source | states |
|---|---|---|
| Api.FetchTable | lib/api.ts:4-27 | With no session it throws "Not authenticated…" and sends no query. Otherwise it sends exactly one select. It returns iff the select succeeds, with null read as []. An error that is PGRST301, or whose message includes "permission denied" or "policy", becomes an access-denied message. Any other error is rethrown unchanged. |
| Api.AccessDeniedTo | lib/api.ts:20-21 | The read-side access-denied message contains the table's name. |
| Api.CreateRecord | lib/api.ts:29-64 | With no session it throws "Not authenticated…" and sends no query. Otherwise it sends exactly one insert. It returns the created row, or throws the message that the create-side classification gives. |
| Api.Classify | lib/api.ts:43-57 | The result is the first rule, in list order, that matches the error. It is None iff no rule matches. |
| Api.CreateErrorOrder | lib/api.ts:39-60 | Create errors are tested in this order: 23505 duplicate, 23503 invalid reference, 23502 missing field, RLS, "violates check constraint". When none matches, the text is the raw message, or "Failed to create record in <table>" when there is none. |
| Api.UpdateMatchesCreate | lib/api.ts:95-115 | PGRST116 becomes "Record not found…". For every other code except 23503, update errors classify exactly like create errors. 23503 has no case of its own on the update side. |
| Api.WithTimestamp | lib/api.ts:75 | The first update payload has the caller's keys plus `updated_at`, and `updated_at` holds the current time. Every other key keeps the caller's value. |
| Api.ColumnTestRedundant | lib/api.ts:83-86 | The retry test "code 42703, or the message includes `column "updated_at"` or `updated_at`" is equivalent to the test without its middle case. |
| Api.UpdateRecord | lib/api.ts:66-119 | With no session it throws and sends nothing. Otherwise it sends one or two updates, and the first carries `updated_at`. The second is sent iff the first failed with an error naming `updated_at`, and that retry carries the caller's updates only. The last reply decides the outcome, and its error is translated by the update-side rules. |
| Api.DeleteRecord | lib/api.ts:121-124 | There is no session check: exactly one delete is sent. It returns iff the backend succeeds, and a backend error is rethrown as it is. |
| Api.GetTableCount | lib/api.ts:162-182 | It never throws. It sends a count query iff there is a session. It yields the backend's count when that count is present, and 0 for no session, an error or a null count. A positive result implies a session and a successful count. |
| Api.ErrorText | lib/api.ts:60 | `err.message \|\| fallback` is never empty when the fallback is not empty. |
| Api.Reload | app/dashboard/student-clubs/page.tsx:34-44 | A page's `loadX` sends one select when there is a session and none otherwise. It sets the banner iff the fetch threw. The banner then reads "Not authenticated…", the access-denied text, or the backend's message, with the loader's fallback when that message is missing or empty. |
| Api.ThenReload | app/dashboard/hackathons/page.tsx:62-77 | After the data-client call's own queries, a select of the table follows iff that call returned and there is a session. The banner is left alone iff the call returned and the reload succeeded. A thrown call shows `err.message \|\| fallback`. A returned call without a session shows "Not authenticated…". A failed reload shows the access-denied text, or the backend's message with the loader's fallback. |
| Api.ConfirmedDelete | app/dashboard/hackathons/page.tsx:57-68 | Without confirmation nothing is sent and the banner is untouched. A failed delete sends only the delete and shows the backend's message, or the fallback when it has none. A successful delete is followed by a select of the table when there is a session, and the reload sets the banner. The banner is set iff the delete or the reload failed. |
| Api.ReloadFailureShown | app/dashboard/hackathons/page.tsx:30-68 | A delete that goes through, followed by a reload that fails with a short plain message, sends the delete and then the select, and the banner shows the reload's message. |
| Api.ApiFetch | lib/api.ts:127-158 | A wrapper's fetch only ever queries the wrapper's own table. |
| Api.ApiCreate | lib/api.ts:127-158 | A wrapper's create only ever queries the wrapper's own table. |
| Api.ApiUpdate | lib/api.ts:127-158 | A wrapper's update, including its retry, only ever queries the wrapper's own table. |
| Api.ApiDelete | lib/api.ts:127-158 | A wrapper's delete only ever queries the wrapper's own table. |
| Api.WrapperTables | lib/api.ts:127-158 | The five wrappers target events, hackathons, scholarships, signups and student_clubs. The signups wrapper has no create and no update. The other four expose all four operations. |
| Api.ApplyUpdate | app/dashboard/hackathons/page.tsx:73 | Merging a partial update gives the union of the two key sets. Payload keys take the payload's values, and every other stored column is kept. |
| Search.ActiveIffNotBlank | app/dashboard/hackathons/page.tsx:147 | The search applies iff the query has a non-white-space character. |
| Search.SearchFilter | app/dashboard/hackathons/page.tsx:143-164 | An inactive query returns the list itself. Every record shown is in the list and, for an active query, has a lower-cased field containing the lower-cased query. Every record of the list that meets that test is shown. The result keeps the list's order: it is a subsequence. |
| Search.BlankQueryShowsAll | app/dashboard/hackathons/page.tsx:144-147 | A white-space-only query shows the whole list, in order. |
| Search.UntrimmedQuery | app/dashboard/hackathons/page.tsx:147-148 | The query is trimmed only for the blank test. " tum" is active, yet it matches no record whose only field is "TUM". |
| Hackathons.CombineDateTime | app/dashboard/hackathons/page.tsx:108-116 | No date gives null. A falsy time gives back the date unchanged. Otherwise the result is a whole number of minutes after the date's midnight. An hour past 23 or a minute past 59 rolls over into a later day, as `setHours` does. |
| Hackathons.CombineDateTimeClock | app/dashboard/hackathons/page.tsx:111-114 | A time written `HH:MM`, optionally followed by `:…`, lands on the same day at exactly that hour and minute. |
| Hackathons.ClockFieldsOf | app/dashboard/hackathons/page.tsx:112-113 | The two `:`-separated fields of a zero-padded `HH:MM[:…]` parse back to the hour and minute written. |
| Hackathons.CombineDateTimeUnparsable | app/dashboard/hackathons/page.tsx:113 | A non-empty time with no `:` and no leading number sets the clock to midnight, because both parts fall back to 0. |
| Hackathons.FilterHackathons | app/dashboard/hackathons/page.tsx:143-164 | The result is a subsequence of the input. A blank query gives the input itself. |
| Hackathons.FilterHackathonsMatch | app/dashboard/hackathons/page.tsx:148-160 | For a non-blank query, a hackathon is shown iff the lower-cased query occurs in one of four lower-cased fields: `name\|\|title`, description, location or `organisers\|\|organizer_name`. |
| Hackathons.HackathonsByDate | app/dashboard/hackathons/page.tsx:167-196 | Group days are strictly ascending. Each group holds exactly the filtered hackathons starting on its day, sorted and stably ordered. |
| Hackathons.HackathonsByDateOrder | app/dashboard/hackathons/page.tsx:181-192 | Within a day, items are in ascending order of `combineDateTime(start_date, start_time)`, and all of them start on that day. |
| Hackathons.HackathonsByDatePlacement | app/dashboard/hackathons/page.tsx:169-178 | A filtered hackathon with a start date is in the group of its start day. One without a start date is in no group. |
| Hackathons.HighlightPayload | app/dashboard/hackathons/page.tsx:73 | The payload has the single key `is_highlight`, holding the negated flag. |
| Hackathons.ToggleHighlight | app/dashboard/hackathons/page.tsx:70-78 | Every query sent is either an update of that hackathon alone or a final select of the hackathons table. Each update payload carries the flipped flag and at most `updated_at` besides. Without a session nothing is sent and the banner reads "Not authenticated…". A failed update sends no select, and its banner reads the thrown message, or "Failed to update highlight status" when the message is empty or missing. A successful update is followed by the select, and the reload decides the banner. |
| Hackathons.ToggleUpdates | app/dashboard/hackathons/page.tsx:73 | Every query of the update step is an update of that hackathon. It carries the flipped flag and at most `updated_at` besides. |
| Hackathons.ToggleChangesOnlyHighlight | app/dashboard/hackathons/page.tsx:70-74 | Merging the toggle flips the flag and keeps every other column. Toggling the result again restores the flag. |
| Hackathons.DeleteHackathon | app/dashboard/hackathons/page.tsx:57-68 | Without confirmation nothing is sent. With confirmation the first query is the delete of that hackathon. A select of the hackathons table follows iff the delete succeeded and there is a session. The banner is set iff the delete or the reload failed. A failed delete shows the backend's message as it is, with no fallback. After a successful delete, the reload decides the banner. |
| Chronology.Days | app/dashboard/hackathons/page.tsx:169-181 | The days are strictly ascending. A day is listed iff some record starts on it. |
| Chronology.GroupByDay | app/dashboard/scholarships/page.tsx:208-235 | Groups are in ascending day order, and there is a group for a day iff some record starts on it. Each group's items start on that day and are sorted by the key. As a multiset they are that day's records, and records with equal keys keep their list order. |
| Chronology.GroupByDayPlacement | app/dashboard/scholarships/page.tsx:209-219 | A dated record is in the group of its day. A grouped record is in the input and starts on its group's day. |
| Chronology.GroupsNonEmpty | app/dashboard/scholarships/page.tsx:214-217 | No group is empty. |
| Scholarships.FilterScholarships | app/dashboard/scholarships/page.tsx:184-205 | The result is a subsequence of the input. A blank query gives the input itself. |
| Scholarships.FilterScholarshipsMatch | app/dashboard/scholarships/page.tsx:188-201 | For a non-blank query, a scholarship is shown iff the query occurs in one of four lower-cased fields: title, `short_description\|\|description`, location or organizer name. |
| Scholarships.ScholarshipsByDate | app/dashboard/scholarships/page.tsx:208-235 | Group days are strictly ascending. Each group holds exactly that day's scholarships. |
| Scholarships.ScholarshipsByDateOrder | app/dashboard/scholarships/page.tsx:227-231 | Within a day, scholarships ascend by start instant alone. Those with equal instants keep their list order. |
| Scholarships.ScholarshipsByDatePlacement | app/dashboard/scholarships/page.tsx:210-218 | A dated scholarship is in its day's group. An undated one is in none. |
| Scholarships.ScholarshipStatusBadge | app/dashboard/scholarships/page.tsx:134-152 | Each of the nine listed statuses gets its own entry. Any other status, or none, gets the "Draft" badge. |
| Scholarships.ScholarshipStatusesDistinct | app/dashboard/scholarships/page.tsx:135-145 | No two listed statuses share a caption. |
| Scholarships.ScholarshipCategoryColor | app/dashboard/scholarships/page.tsx:154-166 | A listed category gets its colour. Any other category gets the `other` colour. |
| Scholarships.WebhookSubmit | app/dashboard/scholarships/page.tsx:100-118 | Nothing is sent iff the link is blank or the address is empty. The body's only key is `scholarship_link`. Its value is the link with surrounding white space removed: it is non-empty, does not start or end with white space, and occurs in the link between blank margins. |
| Scholarships.WebhookSendsIffNotBlank | app/dashboard/scholarships/page.tsx:26 | With the page's fixed address, a request goes out iff the link is not blank. |
| Scholarships.DeleteScholarship | app/dashboard/scholarships/page.tsx:60-71 | Without confirmation nothing is sent. With confirmation the first query is the delete of that scholarship. A select of the scholarships table follows iff the delete succeeded and there is a session. The banner is set iff the delete or the reload failed. A failed delete shows the backend's message as it is, with no fallback. After a successful delete, the reload decides the banner. |
| Events.EventStatusBadge | app/dashboard/events/page.tsx:93-107 | Each of the five listed statuses gets its entry. Any other status gets "Draft". |
| Events.EventCategoryColor | app/dashboard/events/page.tsx:109-121 | A listed category gets its colour. Any other category gets the `other` colour. |
| Events.EventStatusesAgree | app/dashboard/events/page.tsx:94-101 | The five event statuses render as they do on the scholarships page. The four scholarship-only statuses fall back to "Draft" here. |
| Events.CategoryColorsAgree | app/dashboard/events/page.tsx:110-120 | Both pages colour every category identically. |
| Events.DeleteEvent | app/dashboard/events/page.tsx:53-64 | Without confirmation nothing is sent. With confirmation the first query is the delete of that event. A select of the events table follows iff the delete succeeded and there is a session. The banner is set iff the delete or the reload failed. A failed delete shows the backend's message as it is, with no fallback. After a successful delete, the reload decides the banner. |
| Badges.LookupOr | app/dashboard/events/page.tsx:101 | The result is always an entry of the table, and a listed key reads its own entry. |
| Badges.LookupUnknown | app/dashboard/events/page.tsx:120 | An unlisted or missing key reads exactly the fallback entry. |
| Badges.CategoryLabel | app/dashboard/events/page.tsx:217 | The first character is upper-cased, ASCII letters only. Every later character is unchanged, so the label has the category's length. Full Unicode upper-casing can lengthen it (see Left out). |
| Badges.FormatLabel | app/dashboard/events/page.tsx:222 | The first character is upper-cased, ASCII letters only. After it, only the first `-` becomes a space, and everything else is unchanged. |
| Badges.FormatLabelInPerson | app/dashboard/events/page.tsx:222 | "In-Person" is shown as "In Person". |
| Badges.FormatLabelLeadingDash | app/dashboard/events/page.tsx:222 | The first character is never replaced: "-a-b" becomes "-a b". |
| StudentClubs.FilterClubs | app/dashboard/student-clubs/page.tsx:46-63 | The result is a subsequence of the clubs. A blank query gives the list itself. |
| StudentClubs.FilterClubsMatch | app/dashboard/student-clubs/page.tsx:48-61 | A club matches iff the query occurs in name, description or link, or in the universities or topics joined with ", ". |
| StudentClubs.NullListIsEmpty | app/dashboard/student-clubs/page.tsx:53-54 | A null list searches exactly like an empty one. |
| StudentClubs.AdjacentUniversitiesMatch | app/dashboard/student-clubs/page.tsx:53 | A query naming two neighbouring universities, joined by ", ", finds the club. |
| StudentClubs.TumLmuExample | app/dashboard/student-clubs/page.tsx:53 | A club at TUM and LMU is found by "tum, lmu". |
| StudentClubs.DeleteClub | app/dashboard/student-clubs/page.tsx:75-86 | Without confirmation nothing is sent and nothing is shown. With confirmation the first query is the delete of that club. A select of student_clubs follows iff the delete succeeded and there is a session. The banner is cleared, and it ends non-empty iff the delete or the reload failed. A delete error without a message shows "Failed to delete student club". The success notice shows iff the delete succeeded, even when the reload then failed. |
| Dashboard.CardCount | app/dashboard/page.tsx:157-172 | A name that is not a card name counts 0. |
| Dashboard.CardCountFields | app/dashboard/page.tsx:157-172 | The five card names pick out the five stats fields, in card order. |
| Dashboard.CardCaption | app/dashboard/page.tsx:210 | The caption is "Total registrations" iff the card is Signups. Every other card says "Active items". |
| Dashboard.RunGetters | app/dashboard/page.tsx:74-80 | The getters run left to right. Each present getter sends its count query. The counts exist iff every getter exists, and the first missing getter stops the run. |
| Dashboard.LoadStats | app/dashboard/page.tsx:71-87 | Without a session no query goes out. The count queries sent are those of the getters before the first missing one, each counting its getter's table, in card order, and the query sequence stops exactly at the first missing getter. If any of the five getters is missing, the previous stats stay. Otherwise each card's stat is the count its getter's table reports. |
| Dashboard.LoadStatsAsWritten | app/dashboard/page.tsx:53-87 | As written, the stats always stay all zero. With a session, four count queries still go out. |
| Dashboard.CorrectedGetters | lib/api.ts:184-189 | The getter object with the fifth getter added keeps the four existing getters. |
| Dashboard.LoadStatsCorrected | app/dashboard/page.tsx:71-87 | With the fifth getter present, every card shows its table's count, and five count queries go out in card order. |
| Dashboard.LoadStatsAllPresent | app/dashboard/page.tsx:74-81 | With all five getters present, the stats are their tables' counts, one query per getter. |
| Dashboard.LoadCalendarData | app/dashboard/page.tsx:89-107 | Three selects are sent. If any fetch fails, all three lists stay empty. Otherwise each list is its table's rows with a truthy `start_date`, in order. |
| Dashboard.CalendarRowsDated | app/dashboard/page.tsx:99-101 | Once all three fetches succeed, a row is among the calendar's events, hackathons or scholarships iff it is in that table and has a truthy `start_date`. |
| Calendar.AllItems | components/Calendar.tsx:23-29 | The list is the events, then the hackathons, then the scholarships, each tagged with its type. Its length is the sum of the three. |
| Calendar.OnDaySpan | components/Calendar.tsx:38-49 | An item lies on every day from its start day to its end day. One whose end precedes its start lies on those two days only. |
| Calendar.ItemsForDay | components/Calendar.tsx:38-49 | The day's items are a subsequence of all items, and each lies on that day. |
| Calendar.ItemsForDayMembership | components/Calendar.tsx:38-49 | A well-ordered item is listed on a day iff the day lies between its start day and end day. |
| Calendar.MonthGrid | components/Calendar.tsx:31-36 | The grid is whole weeks of consecutive days, from Monday to Sunday. It starts within a week before the month's first day and ends within a week after its last day. |
| Calendar.GridUnderHeaders | components/Calendar.tsx:89 | Each cell's weekday is the header of its column. |
| Calendar.GridCoversMonth | components/Calendar.tsx:31-36 | Every day of the month has a cell, and a 28–31-day month takes four to six rows. |
| Calendar.ShortTitle | components/Calendar.tsx:176 | A title of at most 15 characters is unchanged. A longer title becomes its first 15 characters followed by "...". |
| Calendar.ShortTitleIdempotent | components/Calendar.tsx:176 | Shortening a shortened title changes nothing. |
| Calendar.DayCellOf | components/Calendar.tsx:170-183 | A cell shows at most two chips, for the first items of the day. The "+N more" line shows iff there are more than two items. |
| Calendar.DayCellCountsAll | components/Calendar.tsx:179-183 | The number in "+N more" plus the chips shown equals the day's item count. |
| Calendar.TypeColor | components/Calendar.tsx:51-62 | Every item type has one of the three colours. |
| Calendar.TypeLabel | components/Calendar.tsx:64-75 | Every item type has a non-empty label. |
| Calendar.TypesDistinguishable | components/Calendar.tsx:51-75 | Two types share a colour iff they are the same type, and likewise for labels. |
| Calendar.Upcoming | components/Calendar.tsx:191-201 | The list is absent iff there are no items. It holds at most ten items, in ascending start order. Each is an item starting now or later. As a multiset it is contained in the items starting now or later, so nothing is listed more often than it occurs. With at most ten such items, it is exactly them. For each start instant, the items listed with that start are a prefix of those items in list order. |
| Calendar.UpcomingSoonest | components/Calendar.tsx:195-201 | An upcoming item that is left out starts no earlier than every listed one, and the list is then full. With at most ten upcoming items, all are listed. |
| EventForm.ClockText | components/EventForm.tsx:41-43 | The derived time is five characters with a `:` in the middle. |
| EventForm.EventReset | components/EventForm.tsx:35-69 | A new form has format "In-Person", all flags off and "" elsewhere. Editing fills `name\|\|title`, `organisers\|\|organizer_name`, `link\|\|registration_url` and the format, defaulting to "In-Person". Each flag is true iff stored true. The date is the first 10 characters of the start instant's ISO text. The time is the stored start time, or else the `HH:MM` of the start date. |
| EventForm.EventDateRoundTrip | components/EventForm.tsx:49-93 | When the ISO text is a 10-character day, a `T` and the rest, reopening the event fills in exactly that day. Saving the form again sends the same day, provided the date library reads the day back onto that day. |
| EventForm.ClockTextRoundTrip | components/EventForm.tsx:39-44 | Reading the derived `HH:MM` back through `combineDateTime` gives the stored start instant cut to the minute. |
| EventForm.NormaliseTime | components/EventForm.tsx:96-102 | ":00" is appended iff the time contains exactly one `:`. |
| EventForm.NormaliseTimeIdempotent | components/EventForm.tsx:96-102 | Normalising twice equals normalising once. |
| EventForm.NormaliseTimeKeepsClock | components/EventForm.tsx:96-102 | Appending ":00" changes neither the hour nor the minute that `combineDateTime` reads. |
| EventForm.NormaliseTimeFields | components/EventForm.tsx:98-100 | After the append, the first two `:`-pieces are unchanged. |
| EventForm.NormaliseDate | components/EventForm.tsx:91-93 | There is a result iff the date parses. The result contains no `T`. |
| EventForm.NormaliseDateIso | components/EventForm.tsx:92 | An ISO timestamp is cut to its date part. |
| EventForm.EventSubmit | components/EventForm.tsx:71-111 | A non-blank link that does not parse gives the URL error and nothing is sent. Nothing is sent iff that gate fails or the date does not parse, and an unparsable date gives "Invalid time value". Otherwise the payload equals the form data apart from the date and the time. The time is normalised and the date is the ISO date. A failed save shows its message, or the default text. |
| EventForm.EventFieldErrors | components/EventForm.tsx:145-253 | There are no field errors iff name, start date and format are non-empty and the link is empty or parses. |
| EventForm.EventHandleSubmit | components/EventForm.tsx:71-111 | The handler runs iff no field rule fails. |
| EventForm.EventUrlGateUnreachable | components/EventForm.tsx:77-85 | When the handler is reached through the field rules, its URL gate never fires. |
| ClubForm.ClubReset | components/StudentClubForm.tsx:61-79 | A new form is all empty. Editing fills the text fields, with "" for missing ones, and the lists, with [] for missing ones. |
| ClubForm.NormaliseList | components/StudentClubForm.tsx:95-103 | The result is null iff every entry is empty. Otherwise it is non-empty and free of duplicates. It holds exactly the non-empty entries, in the order of their first occurrence. |
| ClubForm.NormaliseListKeeps | components/StudentClubForm.tsx:95-96 | A non-empty list of distinct, non-empty values comes back unchanged. |
| ClubForm.NormaliseListIdempotent | components/StudentClubForm.tsx:95-103 | Normalising twice equals normalising once. |
| ClubForm.ClubSubmit | components/StudentClubForm.tsx:81-111 | Nothing is sent iff the untrimmed link does not parse, and that shows the URL error. Otherwise name, description and link are trimmed and both lists are normalised. A failed save shows its message, or the default text. |
| ClubForm.ClubFieldErrors | components/StudentClubForm.tsx:143-180 | There are no field errors iff name, description and link are non-empty and the link parses. |
| ClubForm.ClubHandleSubmit | components/StudentClubForm.tsx:81-114 | The handler runs iff no field rule fails, and then a payload is always sent. |
| ClubForm.EditUnchangedRoundTrip | components/StudentClubForm.tsx:61-104 | Editing a trimmed, normalised club and saving it unchanged sends exactly the stored values. |
| ClubForm.OptionsSelectionKept | components/StudentClubForm.tsx:6-31 | Ticking offered options, in the order offered, sends exactly the ticked options. |
| Core.Dedupe | components/StudentClubForm.tsx:95-96 | `Array.from(new Set(xs))` has no duplicates and the same members as `xs`. Its elements are in first-occurrence order. |
| Core.StableSortBy | app/dashboard/hackathons/page.tsx:186-192 | The result is sorted by the key and is a permutation of the input. |
| Core.StableSortByIsStable | app/dashboard/hackathons/page.tsx:186-192 | For every key, the elements with that key keep their relative order. |
| Text.TrimEmptyIffBlank | app/dashboard/hackathons/page.tsx:147 | `trim()` is empty iff the string is white space only. |
| Text.SplitJoin | app/dashboard/hackathons/page.tsx:112 | `split(c)` loses nothing: joining the pieces back with `c` gives the original string. |
| Text.ParsePaddedNat | app/dashboard/hackathons/page.tsx:113 | `parseInt` of a zero-padded decimal reads back its number. |

## Left out

- Network, sessions and the backend are inputs. Logging (`console.*`), loading flags, `setTimeout` banners, React state and effects, and rendering are not modelled.
- `Promise.all` runs its calls in parallel. The model evaluates them in array order and does not model interleaving.
- Time zones and daylight-saving changes are not modelled: every day is 86 400 000 ms of local time. A date-only string, which `new Date` reads as UTC midnight, is not distinguished from local midnight.
- Chronology.GroupByDay: the pages sort day keys as ISO strings. The model sorts by day number, which agrees for years 0 to 9999 only.
- An unparsable stored date is not modelled. `new Date(...)` gives an invalid date, and the pages' `toISOString` would throw while rendering.
- `new URL` and `new Date`/`toISOString` are parameters, not implementations.
- Lower-casing covers ASCII letters only. `length` counts code points rather than UTF-16 units (for example in Calendar.ShortTitle).
- Badges.CategoryLabel: upper-casing covers ASCII letters only. `toUpperCase` maps every letter, so "ärzte" shows as "Ärzte" where the model keeps "ärzte". It can also lengthen the text, as "ß" becomes "SS". The Unicode case tables are not modelled.
- Badges.FormatLabel: the first character is upper-cased for ASCII letters only, for the same reason.
- Badges.LookupOr: keys such as `constructor` are not modelled. They would read `Object.prototype` members through the page's plain objects.
- ClubForm.ClubReset: a stored list that is present but not an array is not represented. Stored lists are typed as lists or null.
- Checkbox interaction is not modelled. The form's list value is taken as given.
- EventForm.EventReset: a new form leaves name, date and the other text inputs undefined. Their submitted value is the input's empty text, and the model writes it as "".
- Calendar rows without a `title` are not modelled, because `item.title.length` would throw. The calendar reads `title` from every row, including hackathons that only have `name`.
- The calendar's "today" ring and its month navigation (`addMonths`/`subMonths`) are presentation only.
- Dashboard.LoadStatsCorrected takes the partner-events table's name as a parameter. No such table appears in the data client.
- The webhook POST itself, its HTTP status check and its success banner are I/O. Only the guard and the body are modelled.
- The pages' create/update submit handlers only forward to the wrappers and rethrow. They are covered by the wrapper and form members.

## Findings

| source | as written | input that shows it | evidently intended | confidence | as-written member | corrected member |
|---|---|---|---|---|---|---|
| app/dashboard/page.tsx:74-86 | The page calls `dashboardStats.getPartnerEventsCount()`, which lib/api.ts:184-189 does not define. The call throws a TypeError inside the `try`, so `setStats` never runs. | Any session and any backend, e.g. an events count of 3: the Events card still shows 0 (Dashboard.StatsStayZero). | Each card shows its table's count, with a fifth getter for partner events. | not executed | Dashboard.LoadStatsAsWritten | Dashboard.LoadStatsCorrected |

=== FILE: api.dfy ===
/** The data client: generic fetch/create/update/delete/count over named
    tables, with the backend reduced to what the client sees of it — whether a
    session exists, and a reply (data, or an error with a code and a message)
    for each query it sends. Every operation reports the queries it issued
    together with what it returned or threw. */
module Api {
  import opened Core
  import opened Text
  import opened Records

  /** A column value in a row or payload. */
  datatype Value = VNull | VBool(b: bool) | VInt(i: int) | VStr(s: string) | VList(items: seq<string>)

  /** A row or a partial row: column name to value. */
  type Row = map<string, Value>

  /** An error reported by the backend: a PostgREST or Postgres code and an
      optional message. */
  datatype BackendError = BackendError(code: string, message: Option<string>)

  datatype Reply<T> = Ok(data: T) | Err(error: BackendError)

  /** The backend's answer to each kind of query the client can send. */
  datatype Backend = Backend(
    select: string -> Reply<Option<seq<Row>>>,
    insert: (string, Row) -> Reply<Row>,
    update: (string, Id, Row) -> Reply<Row>,
    delete: (string, Id) -> Reply<()>,
    count: string -> Reply<Option<nat>>)

  /** A query sent to the backend. */
  datatype Request =
    | Select(table: string)
    | Insert(table: string, row: Row)
    | Update(table: string, id: Id, payload: Row)
    | Delete(table: string, id: Id)
    | Count(table: string)

  /** What an operation throws: a new Error with a message, or the backend's
      error object passed on unchanged. */
  datatype Thrown = Raised(message: string) | Rethrown(error: BackendError)

  datatype Outcome<T> = Returned(value: T) | Threw(thrown: Thrown)

  /** The queries an operation issued, in order, and its outcome. */
  datatype Call<T> = Call(requests: seq<Request>, outcome: Outcome<T>)

  const NOT_AUTHENTICATED := "Not authenticated. Please log in again."
  const DUPLICATE := "A record with this information already exists."
  const INVALID_REFERENCE := "Invalid reference. Please check related data."
  const MISSING_FIELD := "Required field is missing. Please fill in all required fields."
  const ACCESS_DENIED := "Access denied. Please check Row Level Security (RLS) policies in Supabase."
  const INVALID_VALUE := "Invalid value provided. Please check your input (e.g., status, format, category)."
  const NOT_FOUND := "Record not found. It may have been deleted."

  /** The read-side access-denied message, which names the table. */
  function AccessDeniedTo(table: string): (m: string)
    ensures Contains(m, table) && |m| > |table|
  {
    var prefix := "Access denied to ";
    var suffix := ". Please check Row Level Security (RLS) policies in Supabase. The authenticated user needs SELECT permission.";
    ContainsSelf(table);
    ContainsInContext(prefix, table, suffix, table);
    prefix + table + suffix
  }

  /** `error.message?.includes(needle)`: false when there is no message. */
  predicate MessageIncludes(e: BackendError, needle: string) {
    e.message.Some? && Contains(e.message.value, needle)
  }

  /** A row-level-security or permission failure. */
  predicate IsAccessDenied(e: BackendError) {
    e.code == "PGRST301" || MessageIncludes(e, "permission denied") || MessageIncludes(e, "policy")
  }

  // ----- error classification -----

  /** The error cases the write operations recognise. */
  datatype Classifier = NotFound | Duplicate | InvalidReference | MissingField | AccessDenied | CheckViolation

  predicate Matches(cl: Classifier, e: BackendError) {
    match cl
    case NotFound => e.code == "PGRST116"
    case Duplicate => e.code == "23505"
    case InvalidReference => e.code == "23503"
    case MissingField => e.code == "23502"
    case AccessDenied => IsAccessDenied(e)
    case CheckViolation => MessageIncludes(e, "violates check constraint")
  }

  function MessageOf(cl: Classifier): string {
    match cl
    case NotFound => NOT_FOUND
    case Duplicate => DUPLICATE
    case InvalidReference => INVALID_REFERENCE
    case MissingField => MISSING_FIELD
    case AccessDenied => ACCESS_DENIED
    case CheckViolation => INVALID_VALUE
  }

  /** The order in which `createRecord` tests an error. */
  const CreateRules: seq<Classifier> := [Duplicate, InvalidReference, MissingField, AccessDenied, CheckViolation]

  /** The order in which `updateRecord` tests an error: not-found first, and
      no foreign-key case. */
  const UpdateRules: seq<Classifier> := [NotFound, Duplicate, MissingField, AccessDenied, CheckViolation]

  /** `rules[i]` is the first rule that matches `e`. */
  predicate FirstMatchAt(rules: seq<Classifier>, e: BackendError, i: int) {
    0 <= i < |rules| && Matches(rules[i], e) && forall j :: 0 <= j < i ==> !Matches(rules[j], e)
  }

  /** The first rule matching the error, if any: first match wins. */
  function Classify(rules: seq<Classifier>, e: BackendError): (r: Option<Classifier>)
    ensures forall i :: FirstMatchAt(rules, e, i) ==> r == Some(rules[i])
    ensures r.None? <==> forall i :: 0 <= i < |rules| ==> !Matches(rules[i], e)
  {
    if |rules| == 0 then None
    else if Matches(rules[0], e) then Some(rules[0])
    else
      var r := Classify(rules[1..], e);
      assert forall i :: FirstMatchAt(rules, e, i) ==> FirstMatchAt(rules[1..], e, i - 1);
      assert forall i :: 0 < i < |rules| ==> rules[i] == rules[1..][i - 1];
      r
  }

  /** The message `createRecord` throws for a backend error. */
  function CreateErrorMessage(table: string, e: BackendError): string {
    match Classify(CreateRules, e)
    case Some(cl) => MessageOf(cl)
    case None => TextOr(e.message, "Failed to create record in " + table)
  }

  /** The message `updateRecord` throws for a backend error. */
  function UpdateErrorMessage(table: string, e: BackendError): string {
    match Classify(UpdateRules, e)
    case Some(cl) => MessageOf(cl)
    case None => TextOr(e.message, "Failed to update record in " + table)
  }

  /** The first-match order of the create path, stated case by case. */
  lemma CreateErrorOrder(table: string, e: BackendError)
    ensures e.code == "23505" ==> CreateErrorMessage(table, e) == DUPLICATE
    ensures e.code == "23503" ==> CreateErrorMessage(table, e) == INVALID_REFERENCE
    ensures e.code == "23502" ==> CreateErrorMessage(table, e) == MISSING_FIELD
    ensures e.code !in {"23505", "23503", "23502"} && IsAccessDenied(e)
      ==> CreateErrorMessage(table, e) == ACCESS_DENIED
    ensures e.code !in {"23505", "23503", "23502"} && !IsAccessDenied(e)
      && MessageIncludes(e, "violates check constraint")
      ==> CreateErrorMessage(table, e) == INVALID_VALUE
    ensures e.code !in {"23505", "23503", "23502"} && !IsAccessDenied(e)
      && !MessageIncludes(e, "violates check constraint")
      ==> CreateErrorMessage(table, e) == TextOr(e.message, "Failed to create record in " + table)
  {
    if e.code == "23505" {
      assert FirstMatchAt(CreateRules, e, 0);
    } else if e.code == "23503" {
      assert FirstMatchAt(CreateRules, e, 1);
    } else if e.code == "23502" {
      assert FirstMatchAt(CreateRules, e, 2);
    } else if IsAccessDenied(e) {
      assert FirstMatchAt(CreateRules, e, 3);
    } else if MessageIncludes(e, "violates check constraint") {
      assert FirstMatchAt(CreateRules, e, 4);
    }
  }

  /** The update path classifies exactly as the create path does, except
      that it recognises a missing row and does not recognise a foreign-key
      violation; only the fallback text differs. */
  lemma UpdateMatchesCreate(table: string, e: BackendError)
    ensures e.code == "PGRST116" ==> UpdateErrorMessage(table, e) == NOT_FOUND
    ensures e.code != "PGRST116" && e.code != "23503"
      ==> Classify(UpdateRules, e) == Classify(CreateRules, e)
    ensures e.code == "23503" && !IsAccessDenied(e) && !MessageIncludes(e, "violates check constraint")
      ==> UpdateErrorMessage(table, e) == TextOr(e.message, "Failed to update record in " + table)
  {
    if e.code == "PGRST116" {
      assert FirstMatchAt(UpdateRules, e, 0);
    } else if e.code != "23503" {
      if e.code == "23505" {
        assert FirstMatchAt(CreateRules, e, 0);
        assert FirstMatchAt(UpdateRules, e, 1);
      } else if e.code == "23502" {
        assert FirstMatchAt(CreateRules, e, 2);
        assert FirstMatchAt(UpdateRules, e, 2);
      } else if IsAccessDenied(e) {
        assert FirstMatchAt(CreateRules, e, 3);
        assert FirstMatchAt(UpdateRules, e, 3);
      } else if MessageIncludes(e, "violates check constraint") {
        assert FirstMatchAt(CreateRules, e, 4);
        assert FirstMatchAt(UpdateRules, e, 4);
      }
    }
  }

  // ----- operations -----

  /** `fetchTable`: requires a session, reads the whole table (newest first,
      as the backend orders it), turns permission failures into a message that
      names the table, rethrows any other error, and reads null as []. */
  function FetchTable(table: string, session: bool, backend: Backend): (c: Call<seq<Row>>)
    ensures !session ==> c == Call([], Threw(Raised(NOT_AUTHENTICATED)))
    ensures session ==> c.requests == [Select(table)]
    ensures c.outcome.Returned? <==> session && backend.select(table).Ok?
    ensures session && backend.select(table).Ok? ==>
      c.outcome.value == backend.select(table).data.GetOr([])
    ensures session && backend.select(table).Err? ==>
      var e := backend.select(table).error;
      c.outcome.thrown == (if IsAccessDenied(e) then Raised(AccessDeniedTo(table)) else Rethrown(e))
  {
    if !session then Call([], Threw(Raised(NOT_AUTHENTICATED)))
    else
      var requests := [Select(table)];
      var reply := backend.select(table);
      if reply.Ok? then Call(requests, Returned(reply.data.GetOr([])))
      else
        var thrown := if IsAccessDenied(reply.error) then Raised(AccessDeniedTo(table)) else Rethrown(reply.error);
        Call(requests, Threw(thrown))
  }

  /** `createRecord`: requires a session, inserts one row and returns it;
      errors are translated by `CreateErrorMessage`. */
  function CreateRecord(table: string, row: Row, session: bool, backend: Backend): (c: Call<Row>)
    ensures !session ==> c == Call([], Threw(Raised(NOT_AUTHENTICATED)))
    ensures session ==> c.requests == [Insert(table, row)]
    ensures session ==> match backend.insert(table, row)
      case Ok(created) => c.outcome == Returned(created)
      case Err(e) => c.outcome == Threw(Raised(CreateErrorMessage(table, e)))
  {
    if !session then Call([], Threw(Raised(NOT_AUTHENTICATED)))
    else
      match backend.insert(table, row)
      case Ok(created) => Call([Insert(table, row)], Returned(created))
      case Err(e) => Call([Insert(table, row)], Threw(Raised(CreateErrorMessage(table, e))))
  }

  /** The first update payload: the caller's updates with `updated_at` set to
      the current time (overriding any caller-supplied value). */
  function WithTimestamp(updates: Row, now: string): (p: Row)
    ensures p.Keys == updates.Keys + {"updated_at"}
    ensures p["updated_at"] == VStr(now)
    ensures forall k :: k in updates && k != "updated_at" ==> p[k] == updates[k]
  {
    updates["updated_at" := VStr(now)]
  }

  /** The error says the table has no `updated_at` column. */
  predicate NamesUpdatedAt(e: BackendError) {
    e.code == "42703" || MessageIncludes(e, "column \"updated_at\"") || MessageIncludes(e, "updated_at")
  }

  /** The middle test of `NamesUpdatedAt` is subsumed by the last one. */
  lemma ColumnTestRedundant(e: BackendError)
    ensures NamesUpdatedAt(e) <==> e.code == "42703" || MessageIncludes(e, "updated_at")
  {
    if MessageIncludes(e, "column \"updated_at\"") {
      var m := e.message.value;
      var long := "column \"updated_at\"";
      ContainsIffOccurs(m, long);
      var i :| OccursAt(m, long, i);
      assert long[8..18] == "updated_at";
      assert m[i..i + 19] == long;
      forall k | 0 <= k < 10 ensures m[i + 8 + k] == "updated_at"[k] {
        assert m[i + 8 + k] == m[i..i + 19][8 + k];
      }
      assert OccursAt(m, "updated_at", i + 8);
      ContainsIffOccurs(m, "updated_at");
    }
  }

  /** `updateRecord`: requires a session; sends the updates with a fresh
      `updated_at`, and if the backend rejects that column retries exactly
      once with the caller's updates alone. The last reply decides the
      outcome; its errors are translated by `UpdateErrorMessage`. */
  function UpdateRecord(table: string, id: Id, updates: Row, session: bool, backend: Backend, now: string): (c: Call<Row>)
    ensures !session ==> c == Call([], Threw(Raised(NOT_AUTHENTICATED)))
    ensures session ==> 1 <= |c.requests| <= 2
    ensures session ==> c.requests[0] == Update(table, id, WithTimestamp(updates, now))
    ensures session ==>
      var first := backend.update(table, id, WithTimestamp(updates, now));
      (|c.requests| == 2 <==> first.Err? && NamesUpdatedAt(first.error))
    ensures |c.requests| == 2 ==> c.requests[1] == Update(table, id, updates)
    ensures session ==>
      var last := c.requests[|c.requests| - 1];
      last.Update? && match backend.update(last.table, last.id, last.payload)
        case Ok(row) => c.outcome == Returned(row)
        case Err(e) => c.outcome == Threw(Raised(UpdateErrorMessage(table, e)))
  {
    if !session then Call([], Threw(Raised(NOT_AUTHENTICATED)))
    else
      var withTimestamp := WithTimestamp(updates, now);
      var first := backend.update(table, id, withTimestamp);
      var retry := first.Err? && NamesUpdatedAt(first.error);
      var requests := [Update(table, id, withTimestamp)] + (if retry then [Update(table, id, updates)] else []);
      var reply := if retry then backend.update(table, id, updates) else first;
      match reply
      case Ok(row) => Call(requests, Returned(row))
      case Err(e) => Call(requests, Threw(Raised(UpdateErrorMessage(table, e))))
  }

  /** `deleteRecord`: no session check and no translation; the backend's
      error is rethrown as it is. */
  function DeleteRecord(table: string, id: Id, backend: Backend): (c: Call<()>)
    ensures c.requests == [Delete(table, id)]
    ensures c.outcome.Returned? <==> backend.delete(table, id).Ok?
    ensures backend.delete(table, id).Err? ==> c.outcome == Threw(Rethrown(backend.delete(table, id).error))
  {
    match backend.delete(table, id)
    case Ok(_) => Call([Delete(table, id)], Returned(()))
    case Err(e) => Call([Delete(table, id)], Threw(Rethrown(e)))
  }

  /** `getTableCount`: never throws; no session, an error or a null count all
      read as 0. */
  function GetTableCount(table: string, session: bool, backend: Backend): (c: Call<nat>)
    ensures c.outcome.Returned?
    ensures c.requests == if session then [Count(table)] else []
    ensures c.outcome.value > 0 ==> session && backend.count(table) == Ok(Some(c.outcome.value))
    ensures session ==> match backend.count(table)
      case Ok(Some(n)) => c.outcome.value == n
      case _ => c.outcome.value == 0
  {
    if !session then Call([], Returned(0))
    else
      match backend.count(table)
      case Ok(n) => Call([Count(table)], Returned(n.GetOr(0)))
      case Err(_) => Call([Count(table)], Returned(0))
  }

  /** `err.message || fallback` for what an operation threw. */
  function ErrorText(t: Thrown, fallback: string): (m: string)
    ensures fallback != "" ==> m != ""
  {
    match t
    case Raised(message) => if message != "" then message else fallback
    case Rethrown(e) => TextOr(e.message, fallback)
  }

  /** What a list page's delete or toggle handler leaves behind: the queries
      it sent, in order, and the last text it put in the error banner (None:
      the banner was left alone; "" hides it). */
  datatype HandlerRun = HandlerRun(requests: seq<Request>, banner: Option<string>)

  /** A list page's `loadX`: fetch the table again; a failure sets the
      banner to `err.message || fallback` and is not passed on. */
  function Reload(table: string, session: bool, backend: Backend, fallback: string): (r: HandlerRun)
    ensures r.requests == if session then [Select(table)] else []
    ensures r.banner.None? <==> session && backend.select(table).Ok?
    ensures !session ==> r.banner == Some(NOT_AUTHENTICATED)
    ensures session && backend.select(table).Err? ==>
      var e := backend.select(table).error;
      r.banner == Some(if IsAccessDenied(e) then AccessDeniedTo(table) else TextOr(e.message, fallback))
  {
    var c := FetchTable(table, session, backend);
    HandlerRun(c.requests, if c.outcome.Threw? then Some(ErrorText(c.outcome.thrown, fallback)) else None)
  }

  /** The rest of a handler after its one data-client call: a failure lands
      in the handler's own catch (`err.message || fallback`) and nothing more
      is sent; a success is followed by `loadX`, whose own catch decides the
      banner. */
  function ThenReload<T>(first: Call<T>, fallback: string, table: string, session: bool, backend: Backend,
                         loadFallback: string): (r: HandlerRun)
    ensures r.requests == first.requests + (if first.outcome.Returned? && session then [Select(table)] else [])
    ensures r.banner.None? <==> first.outcome.Returned? && session && backend.select(table).Ok?
    ensures first.outcome.Threw? ==> r.banner == Some(ErrorText(first.outcome.thrown, fallback))
    ensures first.outcome.Returned? && !session ==> r.banner == Some(NOT_AUTHENTICATED)
    ensures first.outcome.Returned? && session && backend.select(table).Err? ==>
      var e := backend.select(table).error;
      r.banner == Some(if IsAccessDenied(e) then AccessDeniedTo(table) else TextOr(e.message, loadFallback))
  {
    if first.outcome.Threw? then HandlerRun(first.requests, Some(ErrorText(first.outcome.thrown, fallback)))
    else
      var reload := Reload(table, session, backend, loadFallback);
      HandlerRun(first.requests + reload.requests, reload.banner)
  }

  /** The pages' delete handler: nothing is sent unless the user confirmed;
      then one delete, and after a successful delete the table is reloaded.
      A failed delete shows its own message (the backend's, verbatim when it
      has one); after a successful one only the reload can set the banner. */
  function ConfirmedDelete(table: string, id: Id, confirmed: bool, session: bool, backend: Backend,
                           fallback: string, loadFallback: string): (r: HandlerRun)
    ensures !confirmed ==> r == HandlerRun([], None)
    ensures confirmed && backend.delete(table, id).Err? ==>
      var e := backend.delete(table, id).error;
      && r.requests == [Delete(table, id)]
      && r.banner == Some(TextOr(e.message, fallback))
      && (IsTruthy(e.message) ==> r.banner == Some(e.message.value))
    ensures confirmed && backend.delete(table, id).Ok? ==>
      && r.requests == [Delete(table, id)] + (if session then [Select(table)] else [])
      && r.banner == Reload(table, session, backend, loadFallback).banner
    ensures r.banner.None? <==> !confirmed || (backend.delete(table, id).Ok? && session && backend.select(table).Ok?)
  {
    if confirmed then ThenReload(DeleteRecord(table, id, backend), fallback, table, session, backend, loadFallback)
    else HandlerRun([], None)
  }

  /** A delete that goes through followed by a reload that fails with a
      short plain message: both queries are sent and the reload's message is
      the banner. */
  lemma ReloadFailureShown(table: string, id: Id, backend: Backend, message: string)
    requires backend.delete(table, id).Ok?
    requires backend.select(table) == Err(BackendError("", Some(message)))
    requires message != "" && |message| < |"policy"|
    ensures ConfirmedDelete(table, id, true, true, backend, "", "")
         == HandlerRun([Delete(table, id), Select(table)], Some(message))
  {
    var e := backend.select(table).error;
    if MessageIncludes(e, "policy") {
      ContainsLength(message, "policy");
    }
    if MessageIncludes(e, "permission denied") {
      ContainsLength(message, "permission denied");
    }
  }

  // ----- per-table wrappers -----

  datatype Operation = FetchOp | CreateOp | UpdateOp | DeleteOp

  /** A wrapper object: the table it targets and the operations it exposes. */
  datatype TableApi = TableApi(table: string, operations: set<Operation>)

  const AllOperations: set<Operation> := {FetchOp, CreateOp, UpdateOp, DeleteOp}
  const EventsApi := TableApi("events", AllOperations)
  const HackathonsApi := TableApi("hackathons", AllOperations)
  const ScholarshipsApi := TableApi("scholarships", AllOperations)
  const SignupsApi := TableApi("signups", {FetchOp, DeleteOp})
  const StudentClubsApi := TableApi("student_clubs", AllOperations)

  /** Every query a wrapper issues names the wrapper's table. */
  predicate TargetsOnly<T>(c: Call<T>, table: string) {
    forall i :: 0 <= i < |c.requests| ==> c.requests[i].table == table
  }

  function ApiFetch(api: TableApi, session: bool, backend: Backend): (c: Call<seq<Row>>)
    requires FetchOp in api.operations
    ensures TargetsOnly(c, api.table)
  {
    FetchTable(api.table, session, backend)
  }

  function ApiCreate(api: TableApi, row: Row, session: bool, backend: Backend): (c: Call<Row>)
    requires CreateOp in api.operations
    ensures TargetsOnly(c, api.table)
  {
    CreateRecord(api.table, row, session, backend)
  }

  function ApiUpdate(api: TableApi, id: Id, updates: Row, session: bool, backend: Backend, now: string): (c: Call<Row>)
    requires UpdateOp in api.operations
    ensures TargetsOnly(c, api.table)
  {
    UpdateRecord(api.table, id, updates, session, backend, now)
  }

  function ApiDelete(api: TableApi, id: Id, backend: Backend): (c: Call<()>)
    requires DeleteOp in api.operations
    ensures TargetsOnly(c, api.table)
  {
    DeleteRecord(api.table, id, backend)
  }

  /** The five wrappers target five distinct tables; only the signups wrapper
      is read-and-delete. */
  lemma WrapperTables()
    ensures [EventsApi.table, HackathonsApi.table, ScholarshipsApi.table, SignupsApi.table, StudentClubsApi.table]
         == ["events", "hackathons", "scholarships", "signups", "student_clubs"]
    ensures CreateOp !in SignupsApi.operations && UpdateOp !in SignupsApi.operations
    ensures forall api :: api in {EventsApi, HackathonsApi, ScholarshipsApi, StudentClubsApi} ==> api.operations == AllOperations
  {
  }

  /** The count getters `dashboardStats` defines, by method name. */
  const DashboardStats: map<string, string> := map[
    "getEventsCount" := "events",
    "getHackathonsCount" := "hackathons",
    "getScholarshipsCount" := "scholarships",
    "getSignupsCount" := "signups"]

  /** The partial-update merge the backend applies to a stored row. */
  function ApplyUpdate(row: Row, payload: Row): (r: Row)
    ensures r.Keys == row.Keys + payload.Keys
    ensures forall k :: k in payload ==> r[k] == payload[k]
    ensures forall k :: k in row && k !in payload ==> r[k] == row[k]
  {
    row + payload
  }
}

=== FILE: badges.dfy ===
/** Lookup tables with a default entry, as the list pages use them for status
    badges and category colours, and the capitalised labels they print. */
module Badges {
  import opened Core
  import opened Text

  /** The classes and text of a status badge. */
  datatype StatusStyle = StatusStyle(background: string, foreground: string, caption: string)

  /** `table[key] || table[fallback]`: an absent key, or a key the table does
      not list, reads the fallback entry. Every entry of the tables used here
      is truthy, so `||` only ever falls through on a missing entry. */
  function LookupOr<V(==)>(table: map<string, V>, key: Option<string>, fallback: string): (v: V)
    requires fallback in table
    ensures v in table.Values
    ensures key.Some? && key.value in table ==> v == table[key.value]
  {
    if key.Some? && key.value in table then table[key.value] else table[fallback]
  }

  /** An unlisted key gets exactly the fallback entry. */
  lemma LookupUnknown<V>(table: map<string, V>, key: Option<string>, fallback: string)
    requires fallback in table
    requires key.None? || key.value !in table
    ensures LookupOr(table, key, fallback) == table[fallback]
  {
  }

  /** `value.charAt(0).toUpperCase() + value.slice(1)`: the category label. */
  function CategoryLabel(category: string): (r: string)
    ensures |r| == |category|
    ensures |category| > 0 ==> r[0] == UpperChar(category[0])
    ensures forall i :: 1 <= i < |r| ==> r[i] == category[i]
  {
    UpperFirst(category)
  }

  /** `format.charAt(0).toUpperCase() + format.slice(1).replace('-', ' ')`:
      only the first `-` after the first character becomes a space. */
  function FormatLabel(format: string): (r: string)
    ensures |r| == |format|
    ensures |format| > 0 ==> r[0] == UpperChar(format[0])
    ensures |format| > 0 && '-' !in format[1..] ==> r[1..] == format[1..]
    ensures |format| > 0 ==> forall i :: IsFirstAt(format[1..], '-', i) ==>
      r[i + 1] == ' ' && r[1..i + 1] == format[1..i + 1] && r[i + 2..] == format[i + 2..]
  {
    if |format| == 0 then ""
    else
      var tail := format[1..];
      var rest := ReplaceFirst(tail, '-', ' ');
      var r := [UpperChar(format[0])] + rest;
      assert r[1..] == rest;
      forall i | IsFirstAt(tail, '-', i)
        ensures r[i + 1] == ' ' && r[1..i + 1] == format[1..i + 1] && r[i + 2..] == format[i + 2..]
      {
        assert rest == tail[..i] + [' '] + tail[i + 1..];
        assert r[1..i + 1] == rest[..i] == tail[..i] == format[1..i + 1];
        assert r[i + 2..] == rest[i + 1..] == tail[i + 1..] == format[i + 2..];
      }
      r
  }

  /** The form's default format, "In-Person", is shown as "In Person". */
  lemma FormatLabelInPerson()
    ensures FormatLabel("In-Person") == "In Person"
  {
    var f := "In-Person";
    var r := FormatLabel(f);
    assert f[1..] == "n-Person";
    assert IsFirstAt(f[1..], '-', 1);
    assert r[0] == 'I' && r[1] == f[1] && r[2] == ' ';
    assert r[3..] == f[3..] == "Person";
    forall k | 0 <= k < 9 ensures r[k] == "In Person"[k] {
      if k >= 3 { assert r[k] == r[3..][k - 3]; }
    }
  }

  /** The first character is never replaced: only the remainder is searched
      for a `-`, and only its first `-` is replaced. */
  lemma FormatLabelLeadingDash()
    ensures FormatLabel("-a-b") == "-a b"
  {
    var r := FormatLabel("-a-b");
    assert |r| == 4 && r[0] == '-' && r[1..2] == "a" && r[2] == ' ' && r[3..] == "b" by {
      assert IsFirstAt("a-b", '-', 1);
    }
    assert r == r[..1] + r[1..2] + [r[2]] + r[3..];
  }
}

=== FILE: calendar.dfy ===
/** The dashboard's month calendar: the Monday-first grid of whole weeks
    around the month, the items that fall on each day, what a day cell shows,
    and the list of the next ten upcoming items. */
module Calendar {
  import opened Core
  import opened Text
  import opened Time
  import opened Records

  datatype ItemType = EventItem | HackathonItem | ScholarshipItem

  /** A dated row as the calendar reads it: `start_date` and `end_date`
      already parsed to instants. */
  datatype CalendarEntry = CalendarEntry(id: Id, title: string, start: int, end: Option<int>)

  datatype CalendarItem = CalendarItem(entry: CalendarEntry, kind: ItemType)

  // ----- items -----

  function Tagged(xs: seq<CalendarEntry>, kind: ItemType): (r: seq<CalendarItem>)
    ensures |r| == |xs| && forall i :: 0 <= i < |r| ==> r[i] == CalendarItem(xs[i], kind)
  {
    seq(|xs|, i requires 0 <= i < |xs| => CalendarItem(xs[i], kind))
  }

  /** `allItems`: the events, then the hackathons, then the scholarships,
      each tagged with its type. */
  function AllItems(events: seq<CalendarEntry>, hackathons: seq<CalendarEntry>,
                    scholarships: seq<CalendarEntry>): (r: seq<CalendarItem>)
    ensures |r| == |events| + |hackathons| + |scholarships|
    ensures forall i :: 0 <= i < |events| ==> r[i] == CalendarItem(events[i], EventItem)
    ensures forall i :: 0 <= i < |hackathons| ==> r[|events| + i] == CalendarItem(hackathons[i], HackathonItem)
    ensures forall i :: 0 <= i < |scholarships| ==>
      r[|events| + |hackathons| + i] == CalendarItem(scholarships[i], ScholarshipItem)
  {
    Tagged(events, EventItem) + Tagged(hackathons, HackathonItem) + Tagged(scholarships, ScholarshipItem)
  }

  /** The instant an item ends: its end date, or its start when it has none. */
  function EndOf(item: CalendarItem): int {
    item.entry.end.GetOr(item.entry.start)
  }

  function StartOf(item: CalendarItem): int {
    item.entry.start
  }

  /** The test in `getItemsForDate`: the item starts on the day, ends on it,
      or the day's midnight lies between its start and end. */
  predicate OnDay(item: CalendarItem, day: int) {
    DayOf(StartOf(item)) == day || DayOf(EndOf(item)) == day
    || (StartOf(item) <= Midnight(day) && Midnight(day) <= EndOf(item))
  }

  function OnDayOf(day: int): CalendarItem -> bool {
    (item: CalendarItem) => OnDay(item, day)
  }

  /** An item appears on every day from its start day to its end day; one
      whose end lies before its start appears on those two days only. */
  lemma OnDaySpan(item: CalendarItem, day: int)
    ensures OnDay(item, day) <==> if StartOf(item) <= EndOf(item)
      then DayOf(StartOf(item)) <= day <= DayOf(EndOf(item))
      else day == DayOf(StartOf(item)) || day == DayOf(EndOf(item))
  {
    var s, e := StartOf(item), EndOf(item);
    DayOfIff(s, DayOf(s));
    DayOfIff(e, DayOf(e));
    if s <= e {
      assert DayOf(s) <= DayOf(e);
      if Midnight(day) < s {
        assert day < DayOf(s) + 1;
      }
      if DayOf(s) < day <= DayOf(e) {
        assert Midnight(DayOf(s) + 1) <= Midnight(day) <= Midnight(DayOf(e));
      }
      if s <= Midnight(day) <= e {
        assert Midnight(DayOf(s)) <= Midnight(day) < Midnight(DayOf(e) + 1);
      }
    }
  }

  /** `getItemsForDate(day)`, in `allItems` order. */
  function ItemsForDay(items: seq<CalendarItem>, day: int): (r: seq<CalendarItem>)
    ensures IsSubsequence(r, items)
    ensures forall i :: 0 <= i < |r| ==> OnDay(r[i], day)
  {
    FilterIsSubsequence(items, OnDayOf(day));
    var r := Filter(items, OnDayOf(day));
    forall i | 0 <= i < |r| ensures OnDay(r[i], day) {
      FilterMembership(items, OnDayOf(day), r[i]);
    }
    r
  }

  /** A (well-ordered) item is listed exactly on the days from its start day
      to its end day. */
  lemma ItemsForDayMembership(items: seq<CalendarItem>, day: int, item: CalendarItem)
    requires StartOf(item) <= EndOf(item)
    ensures item in ItemsForDay(items, day) <==>
      item in items && DayOf(StartOf(item)) <= day <= DayOf(EndOf(item))
  {
    FilterMembership(items, OnDayOf(day), item);
    OnDaySpan(item, day);
  }

  // ----- the grid -----

  /** `eachDayOfInterval` from the Monday on or before the first of the month
      to the Sunday on or after its last day. */
  function MonthGrid(monthFirst: int, monthLength: nat): (days: seq<int>)
    requires monthLength >= 1
    ensures |days| % 7 == 0 && |days| >= 7 && |days| >= monthLength
    ensures forall i :: 0 <= i < |days| ==> days[i] == days[0] + i
    ensures forall i :: 0 <= i < |days| ==> WeekDay(days[i]) == (i % 7 + 1) % 7
    ensures days[0] <= monthFirst < days[0] + 7
    ensures monthFirst + monthLength - 1 <= days[|days| - 1] < monthFirst + monthLength + 6
  {
    var first := StartOfWeek(monthFirst, 1);
    var last := EndOfWeek(monthFirst + monthLength - 1, 1);
    var n := last - first + 1;
    WholeWeeks(first, last);
    var days := seq(n, i requires 0 <= i < n => first + i);
    forall i | 0 <= i < n ensures WeekDay(days[i]) == (i % 7 + 1) % 7 {
      MondayColumn(first, i);
    }
    days
  }

  /** From a Monday to a Sunday is a whole number of weeks. */
  lemma WholeWeeks(first: int, last: int)
    requires first <= last && WeekDay(first) == 1 && WeekDay(last) == 0
    ensures (last - first + 1) % 7 == 0
  {
    ShiftWeekDay(first, last - first);
  }

  /** The `i`-th day after a Monday falls in column `i % 7`. */
  lemma MondayColumn(first: int, i: nat)
    requires WeekDay(first) == 1
    ensures WeekDay(first + i) == (i % 7 + 1) % 7
  {
    ShiftWeekDay(first, i);
    assert (1 + i) % 7 == (i % 7 + 1) % 7;
  }

  /** The grid starts under the "Mon" header: the weekday of each cell is
      the header above its column. */
  const WeekHeaders: seq<string> := ["Mon", "Tue", "Wed", "Thu", "Fri", "Sat", "Sun"]
  const DayNames: seq<string> := ["Sun", "Mon", "Tue", "Wed", "Thu", "Fri", "Sat"]

  lemma GridUnderHeaders(monthFirst: int, monthLength: nat, i: nat)
    requires monthLength >= 1 && i < |MonthGrid(monthFirst, monthLength)|
    ensures DayNames[WeekDay(MonthGrid(monthFirst, monthLength)[i])] == WeekHeaders[i % 7]
  {
  }

  /** Every day of the month has a cell, and a month of 28 to 31 days takes
      four to six rows. */
  lemma GridCoversMonth(monthFirst: int, monthLength: nat, d: int)
    requires 28 <= monthLength <= 31
    ensures var days := MonthGrid(monthFirst, monthLength);
      && 4 <= |days| / 7 <= 6
      && (monthFirst <= d < monthFirst + monthLength ==> d in days)
  {
    var days := MonthGrid(monthFirst, monthLength);
    if monthFirst <= d < monthFirst + monthLength {
      assert days[d - days[0]] == d;
    }
  }

  // ----- a day cell -----

  const TITLE_LIMIT := 15

  /** A title longer than 15 characters is cut to 15 and "..." added. */
  function ShortTitle(title: string): (r: string)
    ensures |title| <= TITLE_LIMIT ==> r == title
    ensures |title| > TITLE_LIMIT ==>
      |r| == TITLE_LIMIT + 3 && IsPrefix(r[..TITLE_LIMIT], title) && r[TITLE_LIMIT..] == "..."
  {
    if |title| > TITLE_LIMIT then title[..TITLE_LIMIT] + "..." else title
  }

  /** Shortening a shortened title changes nothing. */
  lemma ShortTitleIdempotent(title: string)
    ensures ShortTitle(ShortTitle(title)) == ShortTitle(title)
  {
    if |title| > TITLE_LIMIT {
      var r := ShortTitle(title);
      assert r[..TITLE_LIMIT] == title[..TITLE_LIMIT];
    }
  }

  /** A chip in a day cell: its colour, the text shown and the tooltip. */
  datatype Chip = Chip(color: string, caption: string, tooltip: string)

  datatype DayCell = DayCell(chips: seq<Chip>, more: Option<string>)

  /** The cell of a day: the first two items as chips and, when there are
      more, a "+N more" line. */
  function DayCellOf(dayItems: seq<CalendarItem>): (cell: DayCell)
    ensures |cell.chips| == if |dayItems| < 2 then |dayItems| else 2
    ensures forall i :: 0 <= i < |cell.chips| ==>
      cell.chips[i] == Chip(TypeColor(dayItems[i].kind), ShortTitle(dayItems[i].entry.title), dayItems[i].entry.title)
    ensures cell.more.Some? <==> |dayItems| > 2
  {
    var shown := Take(dayItems, 2);
    var chips := seq(|shown|, i requires 0 <= i < |shown| =>
      Chip(TypeColor(shown[i].kind), ShortTitle(shown[i].entry.title), shown[i].entry.title));
    DayCell(chips, if |dayItems| > 2 then Some("+" + NatToString(|dayItems| - 2) + " more") else None)
  }

  /** The chips and the number in the "+N more" line account for every item
      of the day. */
  lemma DayCellCountsAll(dayItems: seq<CalendarItem>)
    requires |dayItems| > 2
    ensures var cell := DayCellOf(dayItems);
      var line := cell.more.value;
      && |line| > 6 && line[0] == '+' && line[|line| - 5..] == " more"
      && ParseInt(line[1..|line| - 5]) == Some(|dayItems| - |cell.chips|)
  {
    var n := |dayItems| - 2;
    var line := "+" + NatToString(n) + " more";
    assert line[1..|line| - 5] == NatToString(n);
    ParseNatToString(n);
  }

  // ----- types -----

  /** `getTypeColor`. The default branch cannot be reached: every item is
      tagged with one of the three types. */
  function TypeColor(kind: ItemType): (color: string)
    ensures color in {"bg-blue-500 text-white", "bg-green-500 text-white", "bg-purple-500 text-white"}
  {
    match kind
    case EventItem => "bg-blue-500 text-white"
    case HackathonItem => "bg-green-500 text-white"
    case ScholarshipItem => "bg-purple-500 text-white"
  }

  /** `getTypeLabel`. */
  function TypeLabel(kind: ItemType): (caption: string)
    ensures caption != ""
  {
    match kind
    case EventItem => "Event"
    case HackathonItem => "Hackathon"
    case ScholarshipItem => "Scholarship"
  }

  /** The three types can be told apart by colour and by label alike. */
  lemma TypesDistinguishable(a: ItemType, b: ItemType)
    ensures TypeColor(a) == TypeColor(b) <==> a == b
    ensures TypeLabel(a) == TypeLabel(b) <==> a == b
  {
  }

  // ----- upcoming -----

  const UPCOMING_LIMIT := 10

  function StartsFrom(now: int): CalendarItem -> bool {
    (item: CalendarItem) => StartOf(item) >= now
  }

  /** The "Upcoming" list, shown only when there is any item at all: the
      items starting now or later, soonest first (equal starts in `allItems`
      order), at most ten. */
  function Upcoming(items: seq<CalendarItem>, now: int): (r: Option<seq<CalendarItem>>)
    ensures r.None? <==> items == []
    ensures r.Some? ==> |r.value| <= UPCOMING_LIMIT && SortedBy(r.value, StartOf)
    ensures r.Some? ==> forall i :: 0 <= i < |r.value| ==> r.value[i] in items && StartOf(r.value[i]) >= now
    ensures r.Some? ==> multiset(r.value) <= multiset(Filter(items, StartsFrom(now)))
    ensures r.Some? && |Filter(items, StartsFrom(now))| <= UPCOMING_LIMIT ==>
      multiset(r.value) == multiset(Filter(items, StartsFrom(now)))
    ensures r.Some? ==> forall k :: WithKey(r.value, StartOf, k) <= WithKey(Filter(items, StartsFrom(now)), StartOf, k)
  {
    if items == [] then None
    else
      var pending := Filter(items, StartsFrom(now));
      var sorted := StableSortBy(pending, StartOf);
      var shown := Take(sorted, UPCOMING_LIMIT);
      forall i | 0 <= i < |shown| ensures shown[i] in items && StartOf(shown[i]) >= now {
        assert shown[i] == sorted[i] && sorted[i] in multiset(pending);
        FilterMembership(items, StartsFrom(now), shown[i]);
      }
      TakeSubMultiset(sorted, UPCOMING_LIMIT);
      forall k ensures WithKey(shown, StartOf, k) <= WithKey(pending, StartOf, k) {
        StableSortByIsStable(pending, StartOf, k);
        WithKeyTake(sorted, UPCOMING_LIMIT, StartOf, k);
      }
      Some(shown)
  }

  /** The list holds the soonest upcoming items: one that starts now or later
      but is not listed starts no earlier than any listed one, and when
      there are at most ten such items, all of them are listed. */
  lemma UpcomingSoonest(items: seq<CalendarItem>, now: int, x: CalendarItem)
    requires x in items && StartOf(x) >= now
    ensures var r := Upcoming(items, now).value;
      && (x !in r ==> |r| == UPCOMING_LIMIT && forall i :: 0 <= i < |r| ==> StartOf(r[i]) <= StartOf(x))
      && (|Filter(items, StartsFrom(now))| <= UPCOMING_LIMIT ==> x in r)
  {
    var pending := Filter(items, StartsFrom(now));
    var sorted := StableSortBy(pending, StartOf);
    var r := Upcoming(items, now).value;
    FilterMembership(items, StartsFrom(now), x);
    assert x in multiset(sorted);
    var k :| 0 <= k < |sorted| && sorted[k] == x;
    if x !in r {
      assert k >= |r|;
      assert |r| == UPCOMING_LIMIT;
    }
  }
}

=== FILE: chronology.dfy ===
/** The chronological view shared by the hackathons and scholarships pages:
    the dated rows grouped by the calendar day they start on, the days in
    ascending order, and each day's rows in ascending order of a per-page
    time key, ties kept in list order. Undated rows are left out. */
module Chronology {
  import opened Core
  import opened Time

  /** One day of the view: its day number and the rows starting on it. */
  datatype DayGroup<T> = DayGroup(day: int, items: seq<T>)

  predicate StrictlyAscending(s: seq<int>) {
    forall i, j :: 0 <= i < j < |s| ==> s[i] < s[j]
  }

  /** `x` has a start instant and it falls on day `d`. */
  predicate StartsOn<T>(start: T -> Option<int>, x: T, d: int) {
    start(x).Some? && DayOf(start(x).value) == d
  }

  function StartsOnDay<T>(start: T -> Option<int>, d: int): T -> bool {
    (x: T) => StartsOn(start, x, d)
  }

  /** Some row of `xs` starts on day `d`. */
  predicate AnyStartsOn<T>(xs: seq<T>, start: T -> Option<int>, d: int) {
    exists i :: 0 <= i < |xs| && StartsOn(start, xs[i], d)
  }

  /** Some group of `gs` is for day `d`. */
  predicate HasGroup<T>(gs: seq<DayGroup<T>>, d: int) {
    exists g :: 0 <= g < |gs| && gs[g].day == d
  }

  /** Adds `d` to an ascending list of distinct days. */
  function InsertDistinct(d: int, s: seq<int>): (r: seq<int>)
    requires StrictlyAscending(s)
    ensures StrictlyAscending(r)
    ensures forall e :: e in r <==> e == d || e in s
  {
    if |s| == 0 || d < s[0] then [d] + s
    else if d == s[0] then s
    else
      var rest := InsertDistinct(d, s[1..]);
      assert forall e :: e in s <==> e == s[0] || e in s[1..] by {
        assert s == [s[0]] + s[1..];
      }
      forall j | 0 <= j < |rest| ensures s[0] < rest[j] {
        assert rest[j] in rest;
        if rest[j] != d {
          var k :| 0 <= k < |s[1..]| && s[1..][k] == rest[j];
          assert s[k + 1] == rest[j];
        }
      }
      [s[0]] + rest
  }

  /** The distinct days on which the rows start, ascending: the sorted keys
      of the page's grouping object. */
  function Days<T>(xs: seq<T>, start: T -> Option<int>): (days: seq<int>)
    ensures StrictlyAscending(days)
    ensures forall d :: d in days <==> AnyStartsOn(xs, start, d)
  {
    if |xs| == 0 then []
    else
      var rest := Days(xs[1..], start);
      assert forall d :: AnyStartsOn(xs, start, d)
                     <==> StartsOn(start, xs[0], d) || AnyStartsOn(xs[1..], start, d) by {
        forall d | AnyStartsOn(xs, start, d)
          ensures StartsOn(start, xs[0], d) || AnyStartsOn(xs[1..], start, d)
        {
          var i :| 0 <= i < |xs| && StartsOn(start, xs[i], d);
          if i > 0 {
            assert xs[1..][i - 1] == xs[i];
          }
        }
        forall d | AnyStartsOn(xs[1..], start, d)
          ensures AnyStartsOn(xs, start, d)
        {
          var i :| 0 <= i < |xs| - 1 && StartsOn(start, xs[1..][i], d);
          assert xs[1..][i] == xs[i + 1];
        }
      }
      match start(xs[0])
      case Some(t) => InsertDistinct(DayOf(t), rest)
      case None => rest
  }

  /** `grp` holds exactly the rows of `xs` starting on its day (with their
      multiplicity), sorted by `order`, ties in list order. */
  ghost predicate IsDayGroup<T>(xs: seq<T>, start: T -> Option<int>, order: T -> int, grp: DayGroup<T>) {
    var onDay := Filter(xs, StartsOnDay(start, grp.day));
    && SortedBy(grp.items, order)
    && multiset(grp.items) == multiset(onDay)
    && forall k :: WithKey(grp.items, order, k) == WithKey(onDay, order, k)
  }

  /** A row is in a day group exactly when it is in the list and starts on
      that day. */
  lemma DayGroupMembership<T>(xs: seq<T>, start: T -> Option<int>, order: T -> int, grp: DayGroup<T>, x: T)
    requires IsDayGroup(xs, start, order, grp)
    ensures x in grp.items <==> x in xs && StartsOn(start, x, grp.day)
  {
    var p := StartsOnDay(start, grp.day);
    FilterMembership(xs, p, x);
    assert x in grp.items <==> x in multiset(grp.items);
    assert x in Filter(xs, p) <==> x in multiset(Filter(xs, p));
  }

  /** The chronological view: one group per start day, ascending; each group
      holds exactly the rows starting that day (with their multiplicity),
      sorted by `order`, ties in list order. */
  function GroupByDay<T>(xs: seq<T>, start: T -> Option<int>, order: T -> int): (gs: seq<DayGroup<T>>)
    ensures forall g, h :: 0 <= g < h < |gs| ==> gs[g].day < gs[h].day
    ensures forall d :: HasGroup(gs, d) <==> AnyStartsOn(xs, start, d)
    ensures forall g :: 0 <= g < |gs| ==> IsDayGroup(xs, start, order, gs[g])
  {
    var days := Days(xs, start);
    var gs := seq(|days|, g requires 0 <= g < |days| =>
      DayGroup(days[g], StableSortBy(Filter(xs, StartsOnDay(start, days[g])), order)));
    forall d | d in days
      ensures HasGroup(gs, d)
    {
      var g :| 0 <= g < |days| && days[g] == d;
      assert gs[g].day == d;
    }
    forall g, k | 0 <= g < |gs|
      ensures WithKey(gs[g].items, order, k) == WithKey(Filter(xs, StartsOnDay(start, gs[g].day)), order, k)
    {
      StableSortByIsStable(Filter(xs, StartsOnDay(start, gs[g].day)), order, k);
    }
    gs
  }

  /** Every dated row lands in the group of its own start day and in no other
      group; an undated row lands in none. With the days strictly ascending,
      that group is unique. */
  lemma GroupByDayPlacement<T>(xs: seq<T>, start: T -> Option<int>, order: T -> int, x: T)
    ensures var gs := GroupByDay(xs, start, order);
      && (x in xs && start(x).Some? ==>
            exists g :: 0 <= g < |gs| && gs[g].day == DayOf(start(x).value) && x in gs[g].items)
      && (forall g :: 0 <= g < |gs| && x in gs[g].items ==>
            x in xs && StartsOn(start, x, gs[g].day))
  {
    var gs := GroupByDay(xs, start, order);
    forall g | 0 <= g < |gs|
      ensures x in gs[g].items <==> x in xs && StartsOn(start, x, gs[g].day)
    {
      DayGroupMembership(xs, start, order, gs[g], x);
    }
    if x in xs && start(x).Some? {
      var d := DayOf(start(x).value);
      var i :| 0 <= i < |xs| && xs[i] == x;
      assert StartsOn(start, xs[i], d);
      assert AnyStartsOn(xs, start, d);
      var g :| 0 <= g < |gs| && gs[g].day == d;
      assert x in gs[g].items;
    }
  }

  /** No group is empty. */
  lemma GroupsNonEmpty<T>(xs: seq<T>, start: T -> Option<int>, order: T -> int)
    ensures var gs := GroupByDay(xs, start, order);
      forall g :: 0 <= g < |gs| ==> |gs[g].items| > 0
  {
    var gs := GroupByDay(xs, start, order);
    forall g | 0 <= g < |gs|
      ensures |gs[g].items| > 0
    {
      var d := gs[g].day;
      assert HasGroup(gs, d);
      var i :| 0 <= i < |xs| && StartsOn(start, xs[i], d);
      DayGroupMembership(xs, start, order, gs[g], xs[i]);
    }
  }
}

=== FILE: club_form.dfy ===
/** The student-club form: filling it from a stored club, the field rules,
    and the submit handler, which checks the link, trims the text fields and
    reduces each checkbox list to its distinct non-empty values, sending
    null for a list that ends up empty. */
module ClubForm {
  import opened Core
  import opened Text
  import opened Records
  import opened Forms

  const UNIVERSITY_OPTIONS: seq<string> := ["TUM", "LMU", "HM", "THI", "FAU", "Uni Augsburg",
    "Uni Bayreuth", "Uni Regensburg", "Uni Würzburg", "Uni Passau"]

  const TOPIC_OPTIONS: seq<string> := ["AI", "Business", "Robotics", "Software", "Legal",
    "Data Science", "Product", "Design", "Cybersecurity", "Finance", "Blockchain"]

  const SAVE_ERROR := "An error occurred while saving the club. Please try again."

  /** The form's values; a checkbox list may be missing. */
  datatype ClubFormData = ClubFormData(
    name: string,
    description: string,
    link: string,
    universities: Option<seq<string>>,
    topics: Option<seq<string>>)

  /** What the form hands to the save handler: a null list stands for "none". */
  datatype ClubPayload = ClubPayload(
    name: string,
    description: string,
    link: string,
    universities: Option<seq<string>>,
    topics: Option<seq<string>>)

  const NewClubForm := ClubFormData("", "", "", Some([]), Some([]))

  /** `reset(...)`: text fields fall back to "", a list that is not an array
      (here: a missing one) to the empty list. */
  function ClubReset(initial: Option<Club>): (d: ClubFormData)
    ensures initial.None? ==> d == NewClubForm
    ensures d.universities.Some? && d.topics.Some?
    ensures initial.Some? ==>
      var c := initial.value;
      && d.name == TextOf(c.name) && d.description == TextOf(c.description) && d.link == TextOf(c.link)
      && d.universities.value == c.universities.GetOr([])
      && d.topics.value == c.topics.GetOr([])
  {
    match initial
    case None => NewClubForm
    case Some(c) =>
      ClubFormData(TextOf(c.name), TextOf(c.description), TextOf(c.link),
        Some(c.universities.GetOr([])), Some(c.topics.GetOr([])))
  }

  function NonEmpty(s: string): bool {
    s != ""
  }

  /** `Array.from(new Set((xs || []).filter(Boolean)))`, then null for an
      empty result. */
  function NormaliseList(xs: Option<seq<string>>): (r: Option<seq<string>>)
    ensures r.None? <==> forall s :: s in xs.GetOr([]) ==> s == ""
    ensures r.Some? ==> r.value != [] && NoDuplicates(r.value)
    ensures r.Some? ==> forall s :: s in r.value <==> s in xs.GetOr([]) && s != ""
    ensures r.Some? ==> forall i, j :: 0 <= i < j < |r.value| ==>
      FirstIndex(xs.value, r.value[i]) < FirstIndex(xs.value, r.value[j])
  {
    var list := xs.GetOr([]);
    var kept := Filter(list, NonEmpty);
    var distinct := Dedupe(kept);
    forall s ensures s in kept <==> s in list && s != "" {
      FilterMembership(list, NonEmpty, s);
    }
    if |distinct| == 0 then
      None
    else
      assert distinct[0] in kept;
      forall i, j | 0 <= i < j < |distinct|
        ensures FirstIndex(list, distinct[i]) < FirstIndex(list, distinct[j])
      {
        assert distinct[i] in kept && distinct[j] in kept;
        FilterFirstIndex(list, NonEmpty, distinct[i], distinct[j]);
      }
      Some(distinct)
  }

  /** A non-empty list of distinct non-empty values comes back unchanged. */
  lemma NormaliseListKeeps(xs: seq<string>)
    requires xs != [] && NoDuplicates(xs) && "" !in xs
    ensures NormaliseList(Some(xs)) == Some(xs)
  {
    FilterAll(xs, NonEmpty);
    DedupeDistinct(xs);
  }

  /** Normalising a second time changes nothing. */
  lemma NormaliseListIdempotent(xs: Option<seq<string>>)
    ensures NormaliseList(NormaliseList(xs)) == NormaliseList(xs)
  {
    var r := NormaliseList(xs);
    if r.Some? {
      NormaliseListKeeps(r.value);
    }
  }

  /** The URL check inside the handler: the untrimmed link must parse. */
  function ClubSubmit(data: ClubFormData, validUrl: string -> bool,
                      onSubmit: ClubPayload -> SaveResult): (o: FormOutcome<ClubPayload>)
    ensures o.sent.None? <==> !validUrl(data.link)
    ensures o.sent.None? ==> o.formError == URL_ERROR
    ensures o.sent.Some? ==>
      var p := o.sent.value;
      && p.name == Trim(data.name) && p.description == Trim(data.description) && p.link == Trim(data.link)
      && p.universities == NormaliseList(data.universities)
      && p.topics == NormaliseList(data.topics)
      && (onSubmit(p).Saved? ==> o.formError == "")
      && (onSubmit(p).Failed? ==> o.formError == TextOr(onSubmit(p).message, SAVE_ERROR) && o.formError != "")
  {
    if !validUrl(data.link) then FormOutcome(None, URL_ERROR)
    else
      var p := ClubPayload(Trim(data.name), Trim(data.description), Trim(data.link),
        NormaliseList(data.universities), NormaliseList(data.topics));
      match onSubmit(p)
      case Saved => FormOutcome(Some(p), "")
      case Failed(message) => FormOutcome(Some(p), TextOr(message, SAVE_ERROR))
  }

  /** The field messages: name, description and link are required (empty
      fails, white space passes) and the link must parse. */
  function ClubFieldErrors(data: ClubFormData, validUrl: string -> bool): (errors: seq<string>)
    ensures errors == [] <==> data.name != "" && data.description != "" && data.link != "" && validUrl(data.link)
    ensures |errors| <= 3
  {
    (if data.name == "" then ["Name is required"] else [])
    + (if data.description == "" then ["Description is required"] else [])
    + (if data.link == "" then ["Link is required"] else if !validUrl(data.link) then [URL_ERROR] else [])
  }

  /** `handleSubmit(onSubmitForm)`. */
  function ClubHandleSubmit(data: ClubFormData, validUrl: string -> bool,
                            onSubmit: ClubPayload -> SaveResult): (o: FormOutcome<ClubPayload>)
    ensures ClubFieldErrors(data, validUrl) != [] ==> o == FormOutcome(None, "")
    ensures ClubFieldErrors(data, validUrl) == [] ==> o.sent.Some? && o == ClubSubmit(data, validUrl, onSubmit)
  {
    if ClubFieldErrors(data, validUrl) != [] then FormOutcome(None, "")
    else ClubSubmit(data, validUrl, onSubmit)
  }

  /** A club whose text is already trimmed and whose lists are already
      normalised comes back from "edit, then save unchanged" exactly as it
      was stored. */
  lemma EditUnchangedRoundTrip(c: Club, validUrl: string -> bool, onSubmit: ClubPayload -> SaveResult)
    requires c.name.Some? && c.description.Some? && c.link.Some?
    requires var d := ClubReset(Some(c)); ClubFieldErrors(d, validUrl) == []
    requires Trim(c.name.value) == c.name.value && Trim(c.description.value) == c.description.value
    requires Trim(c.link.value) == c.link.value
    requires c.universities.None? || (c.universities.value != [] && NoDuplicates(c.universities.value) && "" !in c.universities.value)
    requires c.topics.None? || (c.topics.value != [] && NoDuplicates(c.topics.value) && "" !in c.topics.value)
    ensures ClubHandleSubmit(ClubReset(Some(c)), validUrl, onSubmit).sent
         == Some(ClubPayload(c.name.value, c.description.value, c.link.value, c.universities, c.topics))
  {
    var d := ClubReset(Some(c));
    assert d.name == c.name.value && d.description == c.description.value && d.link == c.link.value;
    if c.universities.Some? { NormaliseListKeeps(c.universities.value); }
    if c.topics.Some? { NormaliseListKeeps(c.topics.value); }
  }

  lemma UniversityOptionsDistinct()
    ensures NoDuplicates(UNIVERSITY_OPTIONS) && "" !in UNIVERSITY_OPTIONS
  {
  }

  lemma TopicOptionsDistinct()
    ensures NoDuplicates(TOPIC_OPTIONS) && "" !in TOPIC_OPTIONS
  {
  }

  /** Ticking options of either list, in the order they are offered, sends
      exactly the ticked options. */
  lemma OptionsSelectionKept(options: seq<string>, picked: seq<string>)
    requires options == UNIVERSITY_OPTIONS || options == TOPIC_OPTIONS
    requires picked != [] && IsSubsequence(picked, options)
    ensures NormaliseList(Some(picked)) == Some(picked)
  {
    if options == UNIVERSITY_OPTIONS { UniversityOptionsDistinct(); } else { TopicOptionsDistinct(); }
    SubsequenceKeepsDistinct(picked, options);
    NormaliseListKeeps(picked);
  }
}

=== FILE: core.dfy ===
/** Generic building blocks shared by every view of the dashboard: optional
    values, order-preserving filtering, subsequences and the stable sort that
    JavaScript's Array.prototype.sort performs. */
module Core {

  /** A value that may be absent (a JavaScript `null`/`undefined` field). */
  datatype Option<+T> = None | Some(value: T) {
    function GetOr(default: T): T {
      match this
      case Some(v) => v
      case None => default
    }
  }

  /** `xs.filter(p)`: the elements satisfying `p`, in their original order. */
  function Filter<T>(xs: seq<T>, p: T -> bool): (r: seq<T>)
    ensures |r| <= |xs|
  {
    if |xs| == 0 then []
    else (if p(xs[0]) then [xs[0]] else []) + Filter(xs[1..], p)
  }

  /** An element is kept exactly when it occurs in the input and satisfies `p`. */
  lemma {:induction false} FilterMembership<T>(xs: seq<T>, p: T -> bool, x: T)
    ensures x in Filter(xs, p) <==> x in xs && p(x)
  {
    if |xs| > 0 {
      FilterMembership(xs[1..], p, x);
      assert xs == [xs[0]] + xs[1..];
    }
  }

  /** `a` can be obtained from `b` by deleting elements, without reordering. */
  predicate IsSubsequence<T(==)>(a: seq<T>, b: seq<T>)
    decreases |b|
  {
    |a| == 0 ||
    (|b| > 0 &&
      ((a[0] == b[0] && IsSubsequence(a[1..], b[1..])) || IsSubsequence(a, b[1..])))
  }

  lemma {:induction false} SubsequenceOfSelf<T>(xs: seq<T>)
    ensures IsSubsequence(xs, xs)
  {
    if |xs| > 0 {
      SubsequenceOfSelf(xs[1..]);
    }
  }

  lemma {:induction false} FilterIsSubsequence<T>(xs: seq<T>, p: T -> bool)
    ensures IsSubsequence(Filter(xs, p), xs)
  {
    if |xs| > 0 {
      FilterIsSubsequence(xs[1..], p);
      var rest := Filter(xs[1..], p);
      if p(xs[0]) {
        assert Filter(xs, p) == [xs[0]] + rest;
        assert ([xs[0]] + rest)[1..] == rest;
      } else {
        assert Filter(xs, p) == rest;
      }
    }
  }

  lemma {:induction false} FilterConcat<T>(a: seq<T>, b: seq<T>, p: T -> bool)
    ensures Filter(a + b, p) == Filter(a, p) + Filter(b, p)
  {
    if |a| > 0 {
      assert (a + b)[1..] == a[1..] + b;
      FilterConcat(a[1..], b, p);
    } else {
      assert a + b == b;
    }
  }

  /** The filter keeps every satisfying element with its full multiplicity and
      drops every other one. */
  lemma {:induction false} FilterMultiplicity<T>(xs: seq<T>, p: T -> bool, x: T)
    ensures multiset(Filter(xs, p))[x] == if p(x) then multiset(xs)[x] else 0
  {
    if |xs| > 0 {
      FilterMultiplicity(xs[1..], p, x);
      assert xs == [xs[0]] + xs[1..];
      assert multiset(xs) == multiset{xs[0]} + multiset(xs[1..]);
    }
  }

  /** A filter whose predicate accepts everything is the identity. */
  lemma {:induction false} FilterAll<T>(xs: seq<T>, p: T -> bool)
    requires forall x :: x in xs ==> p(x)
    ensures Filter(xs, p) == xs
  {
    if |xs| > 0 {
      assert forall x :: x in xs[1..] ==> x in xs;
      FilterAll(xs[1..], p);
    }
  }

  /** Filtering a sequence with one more element at the end. */
  lemma FilterAppend<T>(xs: seq<T>, x: T, p: T -> bool)
    ensures Filter(xs + [x], p) == Filter(xs, p) + (if p(x) then [x] else [])
  {
    FilterConcat(xs, [x], p);
    assert [x][1..] == [];
  }

  /** Elements are in ascending order of `key`. */
  predicate SortedBy<T>(xs: seq<T>, key: T -> int) {
    forall i, j :: 0 <= i < j < |xs| ==> key(xs[i]) <= key(xs[j])
  }

  /** The number of leading elements of a sorted `s` whose key is at most
      `key(x)`: where a stable insertion puts `x`. */
  function InsertPos<T>(x: T, s: seq<T>, key: T -> int): (m: nat)
    requires SortedBy(s, key)
    ensures m <= |s|
    ensures forall i :: 0 <= i < m ==> key(s[i]) <= key(x)
    ensures forall i :: m <= i < |s| ==> key(x) < key(s[i])
  {
    if |s| == 0 || key(x) < key(s[0]) then 0
    else 1 + InsertPos(x, s[1..], key)
  }

  /** Places `x` after every element whose key is at most `key(x)`. */
  function InsertBy<T>(x: T, s: seq<T>, key: T -> int): (r: seq<T>)
    requires SortedBy(s, key)
    ensures SortedBy(r, key)
    ensures multiset(r) == multiset(s) + multiset{x}
  {
    var m := InsertPos(x, s, key);
    InsertAtSorted(x, s, key, m);
    assert s == s[..m] + s[m..];
    assert multiset(s[..m] + [x] + s[m..]) == multiset(s[..m]) + multiset{x} + multiset(s[m..]);
    s[..m] + [x] + s[m..]
  }

  /** Putting `x` between the elements keyed at most `key(x)` and those keyed
      above it keeps the sequence sorted. */
  lemma InsertAtSorted<T>(x: T, s: seq<T>, key: T -> int, m: nat)
    requires SortedBy(s, key) && m <= |s|
    requires forall i :: 0 <= i < m ==> key(s[i]) <= key(x)
    requires forall i :: m <= i < |s| ==> key(x) < key(s[i])
    ensures SortedBy(s[..m] + [x] + s[m..], key)
  {
    var r := s[..m] + [x] + s[m..];
    assert forall i :: 0 <= i < m ==> r[i] == s[i];
    assert forall i :: m < i < |r| ==> r[i] == s[i - 1];
    forall i, j | 0 <= i < j < |r| ensures key(r[i]) <= key(r[j]) {
      if j < m || i > m {
      } else if i == m {
        assert key(x) < key(s[j - 1]);
      } else if j == m {
        assert key(s[i]) <= key(x);
      } else {
        assert key(s[i]) <= key(x) < key(s[j - 1]);
      }
    }
  }

  /** The stable sort `xs.sort((a, b) => key(a) - key(b))`: ascending by key,
      ties kept in input order. */
  function StableSortBy<T>(xs: seq<T>, key: T -> int): (r: seq<T>)
    ensures SortedBy(r, key)
    ensures multiset(r) == multiset(xs)
    ensures |r| == |xs|
  {
    if |xs| == 0 then []
    else
      var n := |xs| - 1;
      assert xs == xs[..n] + [xs[n]];
      var r := InsertBy(xs[n], StableSortBy(xs[..n], key), key);
      assert |r| == |multiset(r)| == |multiset(xs)| == |xs|;
      r
  }

  /** The elements whose key is exactly `k`, in order. */
  function WithKey<T>(xs: seq<T>, key: T -> int, k: int): seq<T> {
    Filter(xs, KeyIs(key, k))
  }

  function KeyIs<T>(key: T -> int, k: int): T -> bool {
    (x: T) => key(x) == k
  }

  lemma {:induction false} WithKeyAbsent<T>(s: seq<T>, key: T -> int, k: int)
    requires forall i :: 0 <= i < |s| ==> key(s[i]) != k
    ensures WithKey(s, key, k) == []
  {
    if |s| > 0 {
      WithKeyAbsent(s[1..], key, k);
    }
  }

  lemma WithKeySplice<T>(a: seq<T>, x: T, b: seq<T>, key: T -> int, k: int)
    requires forall i :: 0 <= i < |b| ==> key(x) < key(b[i])
    ensures WithKey(a + [x] + b, key, k)
         == WithKey(a + b, key, k) + (if key(x) == k then [x] else [])
  {
    var p := KeyIs(key, k);
    FilterConcat(a, b, p);
    FilterConcat(a + [x], b, p);
    FilterConcat(a, [x], p);
    assert [x][1..] == [];
    var fa, fb := Filter(a, p), Filter(b, p);
    if key(x) == k {
      assert Filter([x], p) == [x];
      WithKeyAbsent(b, key, k);
      assert WithKey(a + [x] + b, key, k) == fa + [x] + fb;
    } else {
      assert Filter([x], p) == [];
      assert WithKey(a + [x] + b, key, k) == fa + [] + fb;
    }
  }

  lemma InsertByStable<T>(x: T, s: seq<T>, key: T -> int, k: int)
    requires SortedBy(s, key)
    ensures WithKey(InsertBy(x, s, key), key, k)
         == WithKey(s, key, k) + (if key(x) == k then [x] else [])
  {
    var m := InsertPos(x, s, key);
    assert s == s[..m] + s[m..];
    WithKeySplice(s[..m], x, s[m..], key, k);
  }

  /** Stability: for every key, the elements carrying that key appear in the
      sorted output in exactly the order they had in the input. */
  lemma {:induction false} StableSortByIsStable<T>(xs: seq<T>, key: T -> int, k: int)
    ensures WithKey(StableSortBy(xs, key), key, k) == WithKey(xs, key, k)
  {
    if |xs| > 0 {
      var n := |xs| - 1;
      StableSortByIsStable(xs[..n], key, k);
      InsertByStable(xs[n], StableSortBy(xs[..n], key), key, k);
      assert xs == xs[..n] + [xs[n]];
      FilterAppend(xs[..n], xs[n], KeyIs(key, k));
      assert KeyIs(key, k)(xs[n]) <==> key(xs[n]) == k;
    }
  }

  /** `xs.slice(0, n)`. */
  function Take<T>(xs: seq<T>, n: nat): (r: seq<T>)
    ensures |r| == if |xs| < n then |xs| else n
    ensures forall i :: 0 <= i < |r| ==> r[i] == xs[i]
  {
    if |xs| <= n then xs else xs[..n]
  }

  /** A prefix holds no element more often than the whole sequence. */
  lemma TakeSubMultiset<T>(xs: seq<T>, n: nat)
    ensures multiset(Take(xs, n)) <= multiset(xs)
    ensures |xs| <= n ==> multiset(Take(xs, n)) == multiset(xs)
  {
    if n < |xs| {
      assert xs == xs[..n] + xs[n..];
      assert multiset(xs) == multiset(xs[..n]) + multiset(xs[n..]);
    }
  }

  /** Cutting a list short keeps, for every key, a prefix of the elements
      carrying that key. */
  lemma WithKeyTake<T>(xs: seq<T>, n: nat, key: T -> int, k: int)
    ensures WithKey(Take(xs, n), key, k) <= WithKey(xs, key, k)
  {
    if n < |xs| {
      assert xs == xs[..n] + xs[n..];
      FilterConcat(xs[..n], xs[n..], KeyIs(key, k));
    }
  }

  predicate NoDuplicates<T(==)>(xs: seq<T>) {
    forall i, j :: 0 <= i < j < |xs| ==> xs[i] != xs[j]
  }

  /** The index of the first occurrence of `x` in `xs`. */
  function FirstIndex<T(==)>(xs: seq<T>, x: T): (k: nat)
    requires x in xs
    ensures k < |xs| && xs[k] == x && x !in xs[..k]
  {
    if xs[0] == x then 0
    else
      var k := 1 + FirstIndex(xs[1..], x);
      assert xs[..k] == [xs[0]] + xs[1..][..k - 1];
      k
  }

  /** The first occurrence is the only index with nothing equal before it. */
  lemma FirstIndexUnique<T>(xs: seq<T>, x: T, k: nat)
    requires k < |xs| && xs[k] == x && x !in xs[..k]
    ensures FirstIndex(xs, x) == k
  {
  }

  /** An element of a prefix first occurs where it first occurs in the prefix. */
  lemma FirstIndexInPrefix<T>(xs: seq<T>, n: nat, y: T)
    requires n <= |xs| && y in xs[..n]
    ensures y in xs && FirstIndex(xs, y) == FirstIndex(xs[..n], y) < n
  {
    var k := FirstIndex(xs[..n], y);
    assert xs[..n][..k] == xs[..k];
    FirstIndexUnique(xs, y, k);
  }

  /** `Array.from(new Set(xs))`: each distinct element once, in the order of
      its first occurrence. */
  function Dedupe<T(==,!new)>(xs: seq<T>): (r: seq<T>)
    ensures NoDuplicates(r)
    ensures forall x :: x in r <==> x in xs
    ensures forall i, j :: 0 <= i < j < |r| ==> FirstIndex(xs, r[i]) < FirstIndex(xs, r[j])
    ensures |r| <= |xs|
  {
    DistinctSpec(xs);
    Distinct(xs)
  }

  /** The construction behind `Dedupe`: walk the list from the front (here:
      extend the result of the shorter list) and append each value not seen
      yet. */
  function Distinct<T(==)>(xs: seq<T>): seq<T> {
    if |xs| == 0 then []
    else
      var n := |xs| - 1;
      var p := Distinct(xs[..n]);
      if xs[n] in p then p else p + [xs[n]]
  }

  /** The construction keeps exactly the list's values and is no longer. */
  lemma {:induction false} DistinctMembers<T(!new)>(xs: seq<T>)
    ensures forall x :: x in Distinct(xs) <==> x in xs
    ensures |Distinct(xs)| <= |xs|
  {
    if |xs| > 0 {
      var n := |xs| - 1;
      DistinctMembers(xs[..n]);
      assert xs == xs[..n] + [xs[n]];
      assert forall x :: x in xs <==> x in xs[..n] || x == xs[n];
    }
  }

  /** The construction holds each value once, in first-occurrence order. */
  lemma {:induction false} DistinctSpec<T(!new)>(xs: seq<T>)
    ensures var r := Distinct(xs);
      && NoDuplicates(r)
      && (forall x :: x in r <==> x in xs)
      && (forall i, j :: 0 <= i < j < |r| ==> FirstIndex(xs, r[i]) < FirstIndex(xs, r[j]))
      && |r| <= |xs|
  {
    DistinctMembers(xs);
    if |xs| > 0 {
      var n := |xs| - 1;
      DistinctSpec(xs[..n]);
      var p := Distinct(xs[..n]);
      forall y | y in xs[..n]
        ensures FirstIndex(xs, y) == FirstIndex(xs[..n], y) < n
      {
        FirstIndexInPrefix(xs, n, y);
      }
      if xs[n] !in p {
        FirstIndexUnique(xs, xs[n], n);
        var r := p + [xs[n]];
        assert forall i :: 0 <= i < |p| ==> r[i] == p[i] && FirstIndex(xs, p[i]) < n;
        assert r[|p|] == xs[n] && FirstIndex(xs, xs[n]) == n;
      }
    }
  }

  /** Filtering keeps the order in which kept elements first occur. */
  lemma {:induction false} FilterFirstIndex<T>(xs: seq<T>, p: T -> bool, x: T, y: T)
    requires x in Filter(xs, p) && y in Filter(xs, p)
    ensures x in xs && y in xs
    ensures FirstIndex(Filter(xs, p), x) < FirstIndex(Filter(xs, p), y) <==> FirstIndex(xs, x) < FirstIndex(xs, y)
  {
    FilterMembership(xs, p, x);
    FilterMembership(xs, p, y);
    var f := Filter(xs, p);
    var rest := Filter(xs[1..], p);
    if p(xs[0]) {
      assert f == [xs[0]] + rest;
      assert f[1..] == rest;
      if xs[0] != x && xs[0] != y {
        FilterMembership(xs[1..], p, x);
        FilterMembership(xs[1..], p, y);
        FilterFirstIndex(xs[1..], p, x, y);
      }
    } else {
      assert f == rest;
      assert xs[0] != x && xs[0] != y;
      FilterMembership(xs[1..], p, x);
      FilterMembership(xs[1..], p, y);
      FilterFirstIndex(xs[1..], p, x, y);
    }
  }

  /** A list without duplicates is its own set of distinct values. */
  lemma DedupeDistinct<T(!new)>(xs: seq<T>)
    requires NoDuplicates(xs)
    ensures Dedupe(xs) == xs
  {
    DistinctKeeps(xs);
  }

  lemma {:induction false} DistinctKeeps<T>(xs: seq<T>)
    requires NoDuplicates(xs)
    ensures Distinct(xs) == xs
  {
    if |xs| > 0 {
      var n := |xs| - 1;
      NoDuplicatesInit(xs);
      DistinctKeeps(xs[..n]);
      assert xs == xs[..n] + [xs[n]];
    }
  }

  /** Dropping the last element of a list without duplicates leaves a list
      without duplicates that does not hold that element. */
  lemma NoDuplicatesInit<T>(xs: seq<T>)
    requires NoDuplicates(xs) && |xs| > 0
    ensures NoDuplicates(xs[..|xs| - 1]) && xs[|xs| - 1] !in xs[..|xs| - 1]
  {
    var n := |xs| - 1;
    var init := xs[..n];
    forall i, j | 0 <= i < j < n ensures init[i] != init[j] {
      assert init[i] == xs[i] && init[j] == xs[j];
    }
    forall i | 0 <= i < n ensures init[i] != xs[n] {
      assert init[i] == xs[i];
    }
  }

  /** A subsequence of a list of distinct values holds distinct values, all
      of them from the list. */
  lemma {:induction false} SubsequenceKeepsDistinct<T>(a: seq<T>, b: seq<T>)
    requires IsSubsequence(a, b) && NoDuplicates(b)
    ensures NoDuplicates(a) && forall x :: x in a ==> x in b
    decreases |b|
  {
    if |a| > 0 {
      assert NoDuplicates(b[1..]) by {
        forall i, j | 0 <= i < j < |b| - 1 ensures b[1..][i] != b[1..][j] {
          assert b[1..][i] == b[i + 1] && b[1..][j] == b[j + 1];
        }
      }
      if a[0] == b[0] && IsSubsequence(a[1..], b[1..]) {
        SubsequenceKeepsDistinct(a[1..], b[1..]);
        assert forall x :: x in a ==> x == a[0] || x in a[1..];
        assert b[0] !in b[1..];
        forall i, j | 0 <= i < j < |a| ensures a[i] != a[j] {
          if i > 0 {
            assert a[i] == a[1..][i - 1] && a[j] == a[1..][j - 1];
          } else {
            assert a[j] in a[1..];
          }
        }
      } else {
        SubsequenceKeepsDistinct(a, b[1..]);
      }
    }
  }
}

=== FILE: dashboard.dfy ===
/** The dashboard page: the five stat cards and how their counts are loaded,
    and the rows it hands to the calendar. */
module Dashboard {
  import opened Core
  import opened Records
  import opened Api

  /** The counts behind the stat cards. */
  datatype Stats = Stats(events: nat, hackathons: nat, scholarships: nat, signups: nat, partnerEvents: nat)

  const InitialStats := Stats(0, 0, 0, 0, 0)

  const CardNames: seq<string> := ["Events", "Hackathons", "Scholarships", "Signups", "Partner Events"]

  /** The getters the page calls, in the order of its `Promise.all` array. */
  const StatGetters: seq<string> :=
    ["getEventsCount", "getHackathonsCount", "getScholarshipsCount", "getSignupsCount", "getPartnerEventsCount"]

  /** `getCount(name)`: the stat a card shows; 0 for a name it does not know. */
  function CardCount(stats: Stats, name: string): (n: nat)
    ensures name !in CardNames ==> n == 0
  {
    match name
    case "Events" => stats.events
    case "Hackathons" => stats.hackathons
    case "Scholarships" => stats.scholarships
    case "Signups" => stats.signups
    case "Partner Events" => stats.partnerEvents
    case _ => 0
  }

  /** Each card shows its own stat: the five card names pick out the five
      fields in order. */
  lemma CardCountFields(stats: Stats)
    ensures seq(5, i requires 0 <= i < 5 => CardCount(stats, CardNames[i]))
         == [stats.events, stats.hackathons, stats.scholarships, stats.signups, stats.partnerEvents]
  {
  }

  /** The line under a card's count. */
  function CardCaption(name: string): (caption: string)
    ensures caption == "Total registrations" <==> name == "Signups"
    ensures caption != "Total registrations" ==> caption == "Active items"
  {
    if name == "Signups" then "Total registrations" else "Active items"
  }

  /** What calling a list of getters did: the count requests started before
      one of them turned out to be missing, and the counts when none was. */
  datatype GetterRun = GetterRun(requests: seq<Request>, counts: Option<seq<nat>>)

  /** Evaluating `[getters.a(), getters.b(), ...]` from left to right: each
      present getter starts its count (its requests go out), and calling a
      missing one throws a TypeError that abandons the rest. */
  function RunGetters(getters: map<string, string>, names: seq<string>, session: bool, backend: Backend): (r: GetterRun)
    ensures r.counts.Some? <==> forall i :: 0 <= i < |names| ==> names[i] in getters
    ensures r.counts.Some? ==> |r.counts.value| == |names| && forall i :: 0 <= i < |names| ==>
      names[i] in getters && r.counts.value[i] == GetTableCount(getters[names[i]], session, backend).outcome.value
    ensures !session ==> r.requests == []
    ensures session ==> |r.requests| <= |names| && forall i :: 0 <= i < |r.requests| ==>
      names[i] in getters && r.requests[i] == Count(getters[names[i]])
    ensures session && r.counts.Some? ==> |r.requests| == |names|
    ensures session && r.counts.None? ==> |r.requests| < |names| && names[|r.requests|] !in getters
  {
    if |names| == 0 then GetterRun([], Some([]))
    else if names[0] !in getters then GetterRun([], None)
    else
      var first := GetTableCount(getters[names[0]], session, backend);
      var rest := RunGetters(getters, names[1..], session, backend);
      assert forall i :: 1 <= i < |names| ==> names[i] == names[1..][i - 1];
      var requests := first.requests + rest.requests;
      assert session ==> requests[0] == Count(getters[names[0]]);
      assert session ==> forall i :: 1 <= i < |requests| ==> requests[i] == rest.requests[i - 1];
      var counts := match rest.counts
        case Some(c) => Some([first.outcome.value] + c)
        case None => None;
      assert counts.Some? ==> forall i :: 1 <= i < |names| ==> counts.value[i] == rest.counts.value[i - 1];
      GetterRun(requests, counts)
  }

  /** What `loadStats` leaves behind: the requests it started and the stats
      the cards show afterwards. */
  datatype StatsLoad = StatsLoad(requests: seq<Request>, stats: Stats)

  /** Every getter the cards call exists in the getter object. */
  predicate AllGettersPresent(getters: map<string, string>) {
    && "getEventsCount" in getters && "getHackathonsCount" in getters && "getScholarshipsCount" in getters
    && "getSignupsCount" in getters && "getPartnerEventsCount" in getters
  }

  /** The count a present getter reports. */
  function CountVia(getters: map<string, string>, name: string, session: bool, backend: Backend): nat
    requires name in getters
  {
    GetTableCount(getters[name], session, backend).outcome.value
  }

  /** `loadStats` over a given getter object: a thrown error is caught and
      logged, so the previous stats stay when any getter is missing. The
      count requests that went out are those of the getters before the
      first missing one, in order. */
  function LoadStats(getters: map<string, string>, prev: Stats, session: bool, backend: Backend): (r: StatsLoad)
    ensures !session ==> r.requests == []
    ensures |r.requests| <= |StatGetters|
    ensures session ==> forall i :: 0 <= i < |r.requests| ==>
      StatGetters[i] in getters && r.requests[i] == Count(getters[StatGetters[i]])
    ensures session && AllGettersPresent(getters) ==> |r.requests| == |StatGetters|
    ensures session && !AllGettersPresent(getters) ==>
      |r.requests| < |StatGetters| && StatGetters[|r.requests|] !in getters
    ensures !AllGettersPresent(getters) ==> r.stats == prev
    ensures AllGettersPresent(getters) ==> r.stats == Stats(
      CountVia(getters, "getEventsCount", session, backend),
      CountVia(getters, "getHackathonsCount", session, backend),
      CountVia(getters, "getScholarshipsCount", session, backend),
      CountVia(getters, "getSignupsCount", session, backend),
      CountVia(getters, "getPartnerEventsCount", session, backend))
  {
    var run := RunGetters(getters, StatGetters, session, backend);
    assert AllGettersPresent(getters) <==> forall i :: 0 <= i < |StatGetters| ==> StatGetters[i] in getters by {
      assert StatGetters[0] == "getEventsCount" && StatGetters[1] == "getHackathonsCount";
      assert StatGetters[2] == "getScholarshipsCount" && StatGetters[3] == "getSignupsCount";
      assert StatGetters[4] == "getPartnerEventsCount";
    }
    match run.counts
    case None => StatsLoad(run.requests, prev)
    case Some(c) => StatsLoad(run.requests, Stats(c[0], c[1], c[2], c[3], c[4]))
  }

  /** `loadStats` as the page calls it on mount, against the getter object
      the API module exports. */
  function LoadStatsAsWritten(session: bool, backend: Backend): (r: StatsLoad)
    ensures r.stats == InitialStats
    ensures r.requests == if session
      then [Count("events"), Count("hackathons"), Count("scholarships"), Count("signups")]
      else []
  {
    var r := LoadStats(DashboardStats, InitialStats, session, backend);
    assert !AllGettersPresent(DashboardStats);
    if session then
      assert StatGetters[0] in DashboardStats && StatGetters[1] in DashboardStats;
      assert StatGetters[2] in DashboardStats && StatGetters[3] in DashboardStats;
      assert DashboardStats[StatGetters[0]] == "events" && DashboardStats[StatGetters[1]] == "hackathons";
      assert DashboardStats[StatGetters[2]] == "scholarships" && DashboardStats[StatGetters[3]] == "signups";
      assert |r.requests| == 4;
      r
    else r
  }

  /** However many rows the tables hold, every stat card shows 0: the fifth
      getter does not exist, so the whole `Promise.all` throws before any
      count is stored. */
  lemma StatsStayZero(session: bool, backend: Backend)
    requires session && backend.count("events") == Ok(Some(3))
    ensures LoadStatsAsWritten(session, backend).stats.events == 0
    ensures GetTableCount("events", session, backend).outcome.value == 3
  {
  }

  /** The getter object with the fifth getter the page expects, counting the
      given table. */
  function CorrectedGetters(partnerTable: string): (getters: map<string, string>)
    ensures forall i :: 0 <= i < |StatGetters| ==> StatGetters[i] in getters
    ensures "getPartnerEventsCount" in getters && getters["getPartnerEventsCount"] == partnerTable
    ensures forall k :: k in DashboardStats ==> k in getters && getters[k] == DashboardStats[k]
  {
    DashboardStats["getPartnerEventsCount" := partnerTable]
  }

  /** `loadStats` once the missing getter exists: every card shows its
      table's count. */
  function LoadStatsCorrected(partnerTable: string, session: bool, backend: Backend): (r: StatsLoad)
    ensures r.stats == Stats(
      GetTableCount("events", session, backend).outcome.value,
      GetTableCount("hackathons", session, backend).outcome.value,
      GetTableCount("scholarships", session, backend).outcome.value,
      GetTableCount("signups", session, backend).outcome.value,
      GetTableCount(partnerTable, session, backend).outcome.value)
    ensures r.requests == if session
      then [Count("events"), Count("hackathons"), Count("scholarships"), Count("signups"), Count(partnerTable)]
      else []
  {
    var getters := CorrectedGetters(partnerTable);
    LoadStatsAllPresent(getters, InitialStats, session, backend);
    assert getters["getEventsCount"] == "events" && getters["getHackathonsCount"] == "hackathons";
    assert getters["getScholarshipsCount"] == "scholarships" && getters["getSignupsCount"] == "signups";
    LoadStats(getters, InitialStats, session, backend)
  }

  /** With every getter present, the stats are the five tables' counts and
      one count request goes out per getter, in order. */
  lemma LoadStatsAllPresent(getters: map<string, string>, prev: Stats, session: bool, backend: Backend)
    requires "getEventsCount" in getters && "getHackathonsCount" in getters && "getScholarshipsCount" in getters
    requires "getSignupsCount" in getters && "getPartnerEventsCount" in getters
    ensures var r := LoadStats(getters, prev, session, backend);
      var t0, t1, t2 := getters["getEventsCount"], getters["getHackathonsCount"], getters["getScholarshipsCount"];
      var t3, t4 := getters["getSignupsCount"], getters["getPartnerEventsCount"];
      && r.stats == Stats(
        GetTableCount(t0, session, backend).outcome.value,
        GetTableCount(t1, session, backend).outcome.value,
        GetTableCount(t2, session, backend).outcome.value,
        GetTableCount(t3, session, backend).outcome.value,
        GetTableCount(t4, session, backend).outcome.value)
      && r.requests == if session then [Count(t0), Count(t1), Count(t2), Count(t3), Count(t4)] else []
  {
    assert StatGetters[0] == "getEventsCount" && StatGetters[1] == "getHackathonsCount";
    assert StatGetters[2] == "getScholarshipsCount" && StatGetters[3] == "getSignupsCount";
    assert StatGetters[4] == "getPartnerEventsCount";
  }

  // ----- calendar data -----

  /** JavaScript truthiness of a column value. */
  predicate ValueTruthy(v: Value) {
    match v
    case VNull => false
    case VBool(b) => b
    case VInt(i) => i != 0
    case VStr(s) => s != ""
    case VList(_) => true
  }

  /** `row.start_date` is truthy. */
  predicate HasStartDate(row: Row) {
    "start_date" in row && ValueTruthy(row["start_date"])
  }

  datatype CalendarData = CalendarData(events: seq<Row>, hackathons: seq<Row>, scholarships: seq<Row>)

  datatype CalendarLoad = CalendarLoad(requests: seq<Request>, data: CalendarData)

  /** `loadCalendarData`: fetch the three tables together; if all succeed,
      keep the dated rows of each; if any fails, all three stay empty. */
  function LoadCalendarData(session: bool, backend: Backend): (r: CalendarLoad)
    ensures r.requests == if session then [Select("events"), Select("hackathons"), Select("scholarships")] else []
    ensures var ok := session && backend.select("events").Ok? && backend.select("hackathons").Ok?
                      && backend.select("scholarships").Ok?;
      && (!ok ==> r.data == CalendarData([], [], []))
      && (ok ==> r.data == CalendarData(
            Filter(backend.select("events").data.GetOr([]), HasStartDate),
            Filter(backend.select("hackathons").data.GetOr([]), HasStartDate),
            Filter(backend.select("scholarships").data.GetOr([]), HasStartDate)))
  {
    var e := FetchTable(EventsApi.table, session, backend);
    var h := FetchTable(HackathonsApi.table, session, backend);
    var s := FetchTable(ScholarshipsApi.table, session, backend);
    var requests := e.requests + h.requests + s.requests;
    if e.outcome.Returned? && h.outcome.Returned? && s.outcome.Returned? then
      CalendarLoad(requests, CalendarData(
        Filter(e.outcome.value, HasStartDate),
        Filter(h.outcome.value, HasStartDate),
        Filter(s.outcome.value, HasStartDate)))
    else CalendarLoad(requests, CalendarData([], [], []))
  }

  /** Every row the calendar gets has a start date and comes from its table;
      every dated row of a table is handed on once all fetches succeed. */
  lemma CalendarRowsDated(session: bool, backend: Backend, row: Row)
    requires session && backend.select("events").Ok? && backend.select("hackathons").Ok?
    requires backend.select("scholarships").Ok?
    ensures var data := LoadCalendarData(session, backend).data;
      && (row in data.events <==> row in backend.select("events").data.GetOr([]) && HasStartDate(row))
      && (row in data.hackathons <==> row in backend.select("hackathons").data.GetOr([]) && HasStartDate(row))
      && (row in data.scholarships <==> row in backend.select("scholarships").data.GetOr([]) && HasStartDate(row))
  {
    FilterMembership(backend.select("events").data.GetOr([]), HasStartDate, row);
    FilterMembership(backend.select("hackathons").data.GetOr([]), HasStartDate, row);
    FilterMembership(backend.select("scholarships").data.GetOr([]), HasStartDate, row);
  }
}

=== FILE: event_form.dfy ===
/** The event form: filling it from a stored row (with its fallbacks and
    defaults), the field rules the form library checks before submitting, and
    the submit handler — URL check, date and time normalisation, and turning
    a failed save into the form's error message. */
module EventForm {
  import opened Core
  import opened Text
  import opened Time
  import opened Records
  import opened Hackathons
  import opened Forms

  /** The form's values. Text inputs hold "" when left empty. */
  datatype EventFormData = EventFormData(
    name: string,
    description: string,
    startDate: string,
    startTime: string,
    organisers: string,
    location: string,
    format: string,
    link: string,
    postedLinkedin: bool,
    postedWhatsapp: bool,
    postedNewsletter: bool,
    isHighlight: bool)

  /** Date parsing and ISO formatting, which the model leaves to the caller:
      `new Date(s)` (None for an invalid date) and `toISOString()`. */
  datatype DateLib = DateLib(parse: string -> Option<int>, toIso: int -> string)

  const DEFAULT_FORMAT := "In-Person"
  const SAVE_ERROR := "An error occurred while saving the event. Please try again."
  /** The RangeError message of `toISOString` on an invalid date. */
  const INVALID_TIME_VALUE := "Invalid time value"

  // ----- filling the form -----

  /** `HH:MM` of an instant's local clock, zero-padded. */
  function ClockText(t: int): (r: string)
    ensures |r| == 5 && r[2] == ':'
  {
    TwoDigits(HoursOf(t)) + ":" + TwoDigits(MinutesOf(t))
  }

  /** The fields a new form starts with. */
  const NewEventForm := EventFormData("", "", "", "", "", "", DEFAULT_FORMAT, "", false, false, false, false)

  /** `reset(...)` from the stored row, or the new-form defaults. */
  function EventReset(initial: Option<Listing>, lib: DateLib): (d: EventFormData)
    ensures initial.None? ==> d == NewEventForm
    ensures d.format != ""
    ensures initial.Some? ==>
      var x := initial.value;
      && d.name == EitherText(x.name, x.title)
      && d.organisers == EitherText(x.organisers, x.organizerName)
      && d.link == EitherText(x.link, x.registrationUrl)
      && d.format == TextOr(x.format, DEFAULT_FORMAT)
      && d.description == TextOf(x.description) && d.location == TextOf(x.location)
      && (d.postedLinkedin <==> x.postedLinkedin == Some(true))
      && (d.postedWhatsapp <==> x.postedWhatsapp == Some(true))
      && (d.postedNewsletter <==> x.postedNewsletter == Some(true))
      && (d.isHighlight <==> x.isHighlight == Some(true))
      && (x.startDate.None? ==> d.startDate == "")
      && (x.startDate.Some? ==> d.startDate == Take(lib.toIso(x.startDate.value), 10))
      && (IsTruthy(x.startTime) ==> d.startTime == x.startTime.value)
      && (!IsTruthy(x.startTime) && x.startDate.None? ==> d.startTime == "")
      && (!IsTruthy(x.startTime) && x.startDate.Some? ==> d.startTime == ClockText(x.startDate.value))
  {
    match initial
    case None => NewEventForm
    case Some(x) =>
      var time :=
        if IsTruthy(x.startTime) then x.startTime.value
        else if x.startDate.Some? then ClockText(x.startDate.value)
        else "";
      EventFormData(
        EitherText(x.name, x.title),
        TextOf(x.description),
        match x.startDate case Some(t) => Take(lib.toIso(t), 10) case None => "",
        time,
        EitherText(x.organisers, x.organizerName),
        TextOf(x.location),
        TextOr(x.format, DEFAULT_FORMAT),
        EitherText(x.link, x.registrationUrl),
        FlagOf(x.postedLinkedin), FlagOf(x.postedWhatsapp), FlagOf(x.postedNewsletter), FlagOf(x.isHighlight))
  }

  /** The time the form derives from a stored start instant reads back, on
      the page's combine step, as that instant truncated to the minute. */
  lemma ClockTextRoundTrip(t: int)
    ensures CombineDateTime(Some(t), Some(ClockText(t))) == Some(t - (t - StartOfDay(t)) % MINUTE_MS)
  {
    calc {
      CombineDateTime(Some(t), Some(ClockText(t)));
      == { CombineClockText(t); }
      Some(SetHoursMinutes(t, HoursOf(t), MinutesOf(t)));
      == { SetOwnClock(t); }
      Some(t - (t - StartOfDay(t)) % MINUTE_MS);
    }
  }

  /** Combining the date with the derived time sets the instant's own hours
      and minutes. */
  lemma CombineClockText(t: int)
    ensures CombineDateTime(Some(t), Some(ClockText(t))) == Some(SetHoursMinutes(t, HoursOf(t), MinutesOf(t)))
  {
    var time := ClockText(t);
    assert IsTruthy(Some(time));
    assert CombineDateTime(Some(t), Some(time)) == Some(SetClock(t, time));
    ClockTextFields(t);
  }

  /** The two fields of the derived time read back as the instant's hours
      and minutes. */
  lemma ClockTextFields(t: int)
    ensures ClockField(ClockText(t), 0) == HoursOf(t) && ClockField(ClockText(t), 1) == MinutesOf(t)
  {
    ClockFieldsOfPair(HoursOf(t), MinutesOf(t));
  }

  // ----- submitting -----

  /** `HH:MM` becomes `HH:MM:00`: a time with exactly one `:` gets ":00"
      appended; any other time is left as it is. */
  function NormaliseTime(time: string): (r: string)
    ensures r == if CountChar(time, ':') == 1 then time + ":00" else time
  {
    SplitLength(time, ':');
    if time != "" && |Split(time, ':')| == 2 then time + ":00" else time
  }

  /** Normalising twice is normalising once. */
  lemma NormaliseTimeIdempotent(time: string)
    ensures NormaliseTime(NormaliseTime(time)) == NormaliseTime(time)
  {
    if CountChar(time, ':') == 1 {
      SplitSuffix(time, ':', "00");
      SplitLength(time, ':');
      SplitLength(time + ":00", ':');
      assert time + ":00" == time + [':'] + "00";
    }
  }

  /** Appending ":00" changes neither the hours nor the minutes the pages
      read back. */
  lemma NormaliseTimeKeepsClock(date: Option<int>, time: string)
    ensures CombineDateTime(date, Some(NormaliseTime(time))) == CombineDateTime(date, Some(time))
  {
    if CountChar(time, ':') == 1 {
      NormaliseTimeFields(time);
    }
  }

  /** Appending ":00" to a time with one `:` leaves its first two pieces. */
  lemma NormaliseTimeFields(time: string)
    requires CountChar(time, ':') == 1
    ensures ClockField(time + ":00", 0) == ClockField(time, 0)
    ensures ClockField(time + ":00", 1) == ClockField(time, 1)
  {
    assert time + ":00" == time + [':'] + "00";
    SplitSuffix(time, ':', "00");
    SplitLength(time, ':');
    var parts := Split(time, ':');
    assert Split(time + ":00", ':') == parts + ["00"];
    assert (parts + ["00"])[0] == parts[0] && (parts + ["00"])[1] == parts[1];
  }

  /** `new Date(s).toISOString().split('T')[0]`; None where `toISOString`
      throws because the date is invalid. */
  function NormaliseDate(date: string, lib: DateLib): (r: Option<string>)
    ensures r.Some? <==> lib.parse(date).Some?
    ensures r.Some? ==> 'T' !in r.value
  {
    match lib.parse(date)
    case None => None
    case Some(t) => Some(Split(lib.toIso(t), 'T')[0])
  }

  /** An ISO timestamp is cut at its `T`, leaving the date part. */
  lemma NormaliseDateIso(date: string, lib: DateLib, day: string, rest: string)
    requires lib.parse(date).Some? && lib.toIso(lib.parse(date).value) == day + "T" + rest
    requires 'T' !in day
    ensures NormaliseDate(date, lib) == Some(day)
  {
    assert day + "T" + rest == day + ['T'] + rest;
    SplitAtSeparator(day, 'T', rest);
  }

  /** Reopening a stored event fills the date input with the `YYYY-MM-DD`
      part of its ISO timestamp, and saving the form again sends that same
      date, provided the date library reads the day back to a timestamp on
      that day. */
  lemma EventDateRoundTrip(x: Listing, lib: DateLib, day: string, rest: string, rest': string)
    requires x.startDate.Some? && lib.toIso(x.startDate.value) == day + "T" + rest
    requires |day| == 10 && 'T' !in day
    requires lib.parse(day).Some? && lib.toIso(lib.parse(day).value) == day + "T" + rest'
    ensures EventReset(Some(x), lib).startDate == day
    ensures NormaliseDate(EventReset(Some(x), lib).startDate, lib) == Some(day)
  {
    var iso := day + "T" + rest;
    assert iso[..10] == day;
    assert Take(iso, 10) == day;
    NormaliseDateIso(day, lib, day, rest');
  }

  /** The URL check inside the handler: a link that is not blank and does
      not parse. */
  predicate UrlGateFails(link: string, validUrl: string -> bool) {
    link != "" && Trim(link) != "" && !validUrl(link)
  }

  /** `onSubmitForm`. */
  function EventSubmit(data: EventFormData, validUrl: string -> bool, lib: DateLib,
                       onSubmit: EventFormData -> SaveResult): (o: FormOutcome<EventFormData>)
    ensures UrlGateFails(data.link, validUrl) ==> o == FormOutcome(None, URL_ERROR)
    ensures o.sent.None? <==>
      UrlGateFails(data.link, validUrl) || (data.startDate != "" && lib.parse(data.startDate).None?)
    ensures o.sent.None? && !UrlGateFails(data.link, validUrl) ==> o.formError == INVALID_TIME_VALUE
    ensures o.sent.Some? ==>
      var p := o.sent.value;
      && p.(startDate := data.startDate, startTime := data.startTime) == data
      && p.startTime == NormaliseTime(data.startTime)
      && (data.startDate == "" ==> p.startDate == "")
      && (data.startDate != "" ==> Some(p.startDate) == NormaliseDate(data.startDate, lib))
      && (onSubmit(p).Saved? ==> o.formError == "")
      && (onSubmit(p).Failed? ==> o.formError == TextOr(onSubmit(p).message, SAVE_ERROR) && o.formError != "")
  {
    if UrlGateFails(data.link, validUrl) then FormOutcome(None, URL_ERROR)
    else
      var date := if data.startDate != "" then NormaliseDate(data.startDate, lib) else Some("");
      match date
      case None => FormOutcome(None, INVALID_TIME_VALUE)
      case Some(d) =>
        var p := data.(startDate := d, startTime := NormaliseTime(data.startTime));
        match onSubmit(p)
        case Saved => FormOutcome(Some(p), "")
        case Failed(message) => FormOutcome(Some(p), TextOr(message, SAVE_ERROR))
  }

  // ----- the form library's field rules -----

  /** The field messages the form shows: name, start date and format are
      required (empty fails, white space passes), and a non-empty link must
      parse. */
  function EventFieldErrors(data: EventFormData, validUrl: string -> bool): (errors: seq<string>)
    ensures errors == [] <==>
      data.name != "" && data.startDate != "" && data.format != "" && (data.link == "" || validUrl(data.link))
    ensures |errors| <= 4
  {
    (if data.name == "" then ["Name is required"] else [])
    + (if data.startDate == "" then ["Start date is required"] else [])
    + (if data.format == "" then ["Format is required"] else [])
    + (if data.link != "" && !validUrl(data.link) then [URL_ERROR] else [])
  }

  /** `handleSubmit(onSubmitForm)`: the handler runs only when no field rule
      fails. */
  function EventHandleSubmit(data: EventFormData, validUrl: string -> bool, lib: DateLib,
                             onSubmit: EventFormData -> SaveResult): (o: FormOutcome<EventFormData>)
    ensures EventFieldErrors(data, validUrl) != [] ==> o == FormOutcome(None, "")
    ensures EventFieldErrors(data, validUrl) == [] ==> o == EventSubmit(data, validUrl, lib, onSubmit)
  {
    if EventFieldErrors(data, validUrl) != [] then FormOutcome(None, "")
    else EventSubmit(data, validUrl, lib, onSubmit)
  }

  /** The handler's own URL check never fires when it is reached through the
      form library: the link rule has already rejected every such link. */
  lemma EventUrlGateUnreachable(data: EventFormData, validUrl: string -> bool)
    requires EventFieldErrors(data, validUrl) == []
    ensures !UrlGateFails(data.link, validUrl)
  {
  }
}

=== FILE: events.dfy ===
/** The events page: its status badge table (a subset of the scholarships
    page's), its category colours and the category and format labels. */
module Events {
  import opened Core
  import opened Records
  import opened Badges
  import opened Api
  import Scholarships

  const EventStatusStyles: map<string, StatusStyle> := map[
    "draft" := StatusStyle("bg-gray-100", "text-gray-800", "Draft"),
    "published" := StatusStyle("bg-green-100", "text-green-800", "Published"),
    "cancelled" := StatusStyle("bg-red-100", "text-red-800", "Cancelled"),
    "completed" := StatusStyle("bg-blue-100", "text-blue-800", "Completed"),
    "postponed" := StatusStyle("bg-yellow-100", "text-yellow-800", "Postponed")]

  const EventCategoryColors: map<string, string> := map[
    "workshop" := "bg-purple-100 text-purple-800",
    "conference" := "bg-indigo-100 text-indigo-800",
    "meetup" := "bg-pink-100 text-pink-800",
    "webinar" := "bg-cyan-100 text-cyan-800",
    "networking" := "bg-orange-100 text-orange-800",
    "training" := "bg-teal-100 text-teal-800",
    "hackathon" := "bg-emerald-100 text-emerald-800",
    "other" := "bg-gray-100 text-gray-800"]

  /** `getStatusBadge(status)`. */
  function EventStatusBadge(status: Option<string>): (style: StatusStyle)
    ensures status.Some? && status.value in EventStatusStyles ==> style == EventStatusStyles[status.value]
    ensures status.None? || status.value !in EventStatusStyles ==> style.caption == "Draft"
  {
    LookupOr(EventStatusStyles, status, "draft")
  }

  /** `getCategoryColor(category)`. */
  function EventCategoryColor(category: Option<string>): (color: string)
    ensures category.Some? && category.value in EventCategoryColors ==> color == EventCategoryColors[category.value]
    ensures category.None? || category.value !in EventCategoryColors ==> color == "bg-gray-100 text-gray-800"
  {
    LookupOr(EventCategoryColors, category, "other")
  }

  /** The five event statuses render as on the scholarships page; the four
      scholarship-only statuses fall back to the draft badge here. */
  lemma EventStatusesAgree(status: string)
    ensures status in EventStatusStyles ==>
      EventStatusBadge(Some(status)) == Scholarships.ScholarshipStatusBadge(Some(status))
    ensures status in Scholarships.ScholarshipStatusStyles && status !in EventStatusStyles ==>
      EventStatusBadge(Some(status)).caption == "Draft"
      && Scholarships.ScholarshipStatusBadge(Some(status)).caption != "Draft"
  {
  }

  /** Both pages colour categories identically. */
  lemma CategoryColorsAgree(category: Option<string>)
    ensures EventCategoryColor(category) == Scholarships.ScholarshipCategoryColor(category)
  {
    assert EventCategoryColors == Scholarships.CategoryColors;
  }

  /** `handleDelete`: nothing without confirmation; otherwise one delete,
      then a reload of the table when it went through. Both catches show
      `err.message` with no fallback. */
  function DeleteEvent(e: Listing, confirmed: bool, session: bool, backend: Backend): (r: HandlerRun)
    ensures !confirmed ==> r == HandlerRun([], None)
    ensures confirmed ==> |r.requests| >= 1 && r.requests[0] == Delete("events", e.id)
    ensures confirmed ==>
      (r.requests == [Delete("events", e.id), Select("events")]
       <==> backend.delete("events", e.id).Ok? && session)
    ensures r.banner.None? <==> !confirmed || (backend.delete("events", e.id).Ok? && session && backend.select("events").Ok?)
    ensures confirmed && backend.delete("events", e.id).Err? ==>
      r.banner == Some(TextOr(backend.delete("events", e.id).error.message, ""))
    ensures confirmed && backend.delete("events", e.id).Ok? ==> r.banner == Reload("events", session, backend, "").banner
  {
    ConfirmedDelete(EventsApi.table, e.id, confirmed, session, backend, "", "")
  }
}

=== FILE: forms.dfy ===
/** What the two forms share: the outcome of handing a payload to the parent's
    save handler, and the URL message both show. */
module Forms {
  import opened Core

  /** What the parent's save handler did with the payload: resolved, or
      threw an error with or without a message. */
  datatype SaveResult = Saved | Failed(message: Option<string>)

  /** The payload handed to the save handler, if any, and the form's error
      banner ("" for none). */
  datatype FormOutcome<P> = FormOutcome(sent: Option<P>, formError: string)

  const URL_ERROR := "Please enter a valid URL (e.g., https://example.com)"
}

=== FILE: hackathons.dfy ===
/** The hackathons page: combining a start date with an `HH:MM` time, the
    search box, the chronological view and the highlight toggle. */
module Hackathons {
  import opened Core
  import opened Text
  import opened Time
  import opened Records
  import opened Search
  import opened Chronology
  import opened Api

  /** `parseInt(piece) || 0` for the `index`-th `:`-separated piece of a
      time; a missing piece (`parseInt(undefined)`) also reads as 0. */
  function ClockField(time: string, index: nat): int {
    var parts := Split(time, ':');
    if index < |parts| then ParseIntOrZero(parts[index]) else 0
  }

  /** `setHours(parseInt(hours) || 0, parseInt(minutes) || 0, 0, 0)`. */
  function SetClock(t: int, time: string): (r: int)
    ensures (r - StartOfDay(t)) % MINUTE_MS == 0
  {
    var h, m := ClockField(time, 0), ClockField(time, 1);
    SetHoursMinutesWholeMinute(t, h, m);
    SetHoursMinutes(t, h, m)
  }

  /** `combineDateTime(date, time)`: no date gives null; an empty or missing
      time leaves the date as it is; otherwise the clock is set to the
      time's hours and minutes with seconds and milliseconds zeroed. */
  function CombineDateTime(date: Option<int>, time: Option<string>): (r: Option<int>)
    ensures r.Some? <==> date.Some?
    ensures date.Some? && !IsTruthy(time) ==> r == date
    ensures date.Some? && IsTruthy(time) ==> (r.value - StartOfDay(date.value)) % MINUTE_MS == 0
  {
    match date
    case None => None
    case Some(t) =>
      if IsTruthy(time) then Some(SetClock(t, time.value)) else date
  }

  /** A well-formed clock reading `HH:MM`, optionally followed by `:SS`,
      lands on the same day at exactly that hour and minute. */
  lemma CombineDateTimeClock(t: int, h: nat, m: nat, rest: string)
    requires h < 24 && m < 60
    requires rest == "" || (|rest| > 0 && rest[0] == ':')
    ensures var r := CombineDateTime(Some(t), Some(TwoDigits(h) + ":" + TwoDigits(m) + rest));
      && r.Some?
      && DayOf(r.value) == DayOf(t)
      && HoursOf(r.value) == h
      && MinutesOf(r.value) == m
  {
    var time := TwoDigits(h) + ":" + TwoDigits(m) + rest;
    ClockFieldsOf(h, m, rest);
    assert IsTruthy(Some(time));
    assert CombineDateTime(Some(t), Some(time)) == Some(SetHoursMinutes(t, h, m));
  }

  /** The two fields of `HH:MM[:…]` read back as the numbers written. */
  lemma ClockFieldsOf(h: nat, m: nat, rest: string)
    requires h < 24 && m < 60
    requires rest == "" || (|rest| > 0 && rest[0] == ':')
    ensures var time := TwoDigits(h) + ":" + TwoDigits(m) + rest;
      ClockField(time, 0) == h && ClockField(time, 1) == m
  {
    var hh, mm := TwoDigits(h), TwoDigits(m);
    NoColonInDigits(hh);
    NoColonInDigits(mm);
    SplitClock(hh, mm, rest);
    var parts := Split(hh + ":" + mm + rest, ':');
    assert ParseInt(hh) == Some(h) by { ParsePaddedNat(h, 2); }
    assert ParseInt(mm) == Some(m) by { ParsePaddedNat(m, 2); }
    assert ParseIntOrZero(parts[0]) == h;
    assert ParseIntOrZero(parts[1]) == m;
  }

  /** `HH:MM` alone reads back as the numbers written. */
  lemma ClockFieldsOfPair(h: nat, m: nat)
    requires h < 24 && m < 60
    ensures var time := TwoDigits(h) + ":" + TwoDigits(m);
      ClockField(time, 0) == h && ClockField(time, 1) == m
  {
    var time := TwoDigits(h) + ":" + TwoDigits(m);
    ClockFieldsOf(h, m, "");
    assert time + "" == time;
  }

  lemma NoColonInDigits(s: string)
    requires forall i :: 0 <= i < |s| ==> IsDecimalDigit(s[i])
    ensures ':' !in s
  {
  }

  /** The pieces of `a:b[:…]` begin with `a` and `b`. */
  lemma SplitClock(a: string, b: string, rest: string)
    requires ':' !in a && ':' !in b
    requires rest == "" || (|rest| > 0 && rest[0] == ':')
    ensures var parts := Split(a + ":" + b + rest, ':');
      |parts| >= 2 && parts[0] == a && parts[1] == b
  {
    assert a + ":" + b + rest == a + [':'] + (b + rest);
    SplitAtSeparator(a, ':', b + rest);
    if rest == "" {
      assert b + rest == b;
      SplitNoSeparator(b, ':');
    } else {
      assert b + rest == b + [':'] + rest[1..];
      SplitAtSeparator(b, ':', rest[1..]);
    }
  }

  /** A time with no `:` and no leading number sets the clock to midnight:
      both fields fall back to 0. */
  lemma CombineDateTimeUnparsable(t: int, time: string)
    requires time != "" && ':' !in time && ParseInt(time).None?
    ensures CombineDateTime(Some(t), Some(time)) == Some(StartOfDay(t))
  {
    SplitNoSeparator(time, ':');
    assert ClockField(time, 0) == 0 && ClockField(time, 1) == 0;
    assert SetClock(t, time) == SetHoursMinutes(t, 0, 0) == StartOfDay(t);
  }

  // ----- search -----

  /** The fields the search box looks at: `name || title`, description,
      location and `organisers || organizer_name`. */
  function HackathonFields(h: Listing): (fields: seq<string>)
    ensures |fields| == 4
  {
    [EitherText(h.name, h.title), TextOf(h.description), TextOf(h.location), EitherText(h.organisers, h.organizerName)]
  }

  function FilterHackathons(hackathons: seq<Listing>, query: string): (r: seq<Listing>)
    ensures IsSubsequence(r, hackathons)
    ensures IsBlank(query) ==> r == hackathons
  {
    ActiveIffNotBlank(query);
    SearchFilter(hackathons, query, HackathonFields)
  }

  /** For a query that is not blank, a hackathon is shown exactly when the
      lowercased query occurs in one of its four lowercased fields. */
  lemma FilterHackathonsMatch(hackathons: seq<Listing>, query: string, h: Listing)
    requires !IsBlank(query)
    ensures h in FilterHackathons(hackathons, query) <==> (h in hackathons && (
      || Contains(Lower(EitherText(h.name, h.title)), Lower(query))
      || Contains(Lower(TextOf(h.description)), Lower(query))
      || Contains(Lower(TextOf(h.location)), Lower(query))
      || Contains(Lower(EitherText(h.organisers, h.organizerName)), Lower(query))))
  {
    SearchFour(hackathons, query, HackathonFields, h);
  }

  // ----- chronological view -----

  function HackathonStart(h: Listing): Option<int> {
    h.startDate
  }

  /** The in-day sort key: the combined start instant, 0 when there is none. */
  function HackathonTime(h: Listing): int {
    CombineDateTime(h.startDate, h.startTime).GetOr(0)
  }

  function HackathonsByDate(filtered: seq<Listing>): (gs: seq<DayGroup<Listing>>)
    ensures forall g, h :: 0 <= g < h < |gs| ==> gs[g].day < gs[h].day
    ensures forall g :: 0 <= g < |gs| ==> IsDayGroup(filtered, HackathonStart, HackathonTime, gs[g])
  {
    GroupByDay(filtered, HackathonStart, HackathonTime)
  }

  /** Inside a day, hackathons are in ascending order of their combined
      start date and time, and every one of them starts on that day. */
  lemma HackathonsByDateOrder(filtered: seq<Listing>, g: nat, i: nat, j: nat)
    requires var gs := HackathonsByDate(filtered); g < |gs| && i < j < |gs[g].items|
    ensures var items := HackathonsByDate(filtered)[g].items;
      && items[i].startDate.Some? && items[j].startDate.Some?
      && CombineDateTime(items[i].startDate, items[i].startTime).value
         <= CombineDateTime(items[j].startDate, items[j].startTime).value
      && StartsOn(HackathonStart, items[i], HackathonsByDate(filtered)[g].day)
  {
    var gs := HackathonsByDate(filtered);
    var items := gs[g].items;
    assert items[i] in items && items[j] in items;
    DayGroupMembership(filtered, HackathonStart, HackathonTime, gs[g], items[i]);
    DayGroupMembership(filtered, HackathonStart, HackathonTime, gs[g], items[j]);
  }

  /** Every filtered hackathon with a start date is in the group of its
      start day; one without is in no group. */
  lemma HackathonsByDatePlacement(filtered: seq<Listing>, h: Listing)
    ensures var gs := HackathonsByDate(filtered);
      && (h in filtered && h.startDate.Some? ==>
            exists g :: 0 <= g < |gs| && gs[g].day == DayOf(h.startDate.value) && h in gs[g].items)
      && (h.startDate.None? ==> forall g :: 0 <= g < |gs| ==> h !in gs[g].items)
  {
    GroupByDayPlacement(filtered, HackathonStart, HackathonTime, h);
    assert HackathonStart(h) == h.startDate;
  }

  // ----- highlight toggle -----

  /** `{ is_highlight: !hackathon.is_highlight }`. */
  function HighlightPayload(h: Listing): (p: Row)
    ensures p.Keys == {"is_highlight"}
    ensures p["is_highlight"] == VBool(!FlagOf(h.isHighlight))
  {
    map["is_highlight" := VBool(!FlagOf(h.isHighlight))]
  }

  /** `handleToggleHighlight`: an update of that hackathon alone, whose
      payloads carry the flipped flag and at most the timestamp besides,
      followed by a reload of the table when the update went through. A
      failed update always shows a banner; after a successful one only the
      reload can set it. A failed update shows the thrown message, or
      "Failed to update highlight status" when it has none. */
  function ToggleHighlight(h: Listing, session: bool, backend: Backend, now: string): (r: HandlerRun)
    ensures forall i :: 0 <= i < |r.requests| ==>
      var q := r.requests[i];
      || q == Select("hackathons")
      || (&& q.Update? && q.table == "hackathons" && q.id == h.id
          && "is_highlight" in q.payload && q.payload.Keys <= {"is_highlight", "updated_at"}
          && q.payload["is_highlight"] == VBool(!FlagOf(h.isHighlight)))
    ensures forall i :: 0 <= i < |r.requests| && r.requests[i].Select? ==> i == |r.requests| - 1
    ensures !session ==> r == HandlerRun([], Some(NOT_AUTHENTICATED))
    ensures var update := ApiUpdate(HackathonsApi, h.id, HighlightPayload(h), session, backend, now);
      && (update.outcome.Threw? ==>
            && r.requests == update.requests
            && r.banner == Some(ErrorText(update.outcome.thrown, "Failed to update highlight status")))
      && (update.outcome.Returned? ==>
            && r.requests == update.requests + [Select("hackathons")]
            && r.banner == Reload("hackathons", session, backend, "").banner)
  {
    var c := ApiUpdate(HackathonsApi, h.id, HighlightPayload(h), session, backend, now);
    ToggleUpdates(h, session, backend, now);
    var r := ThenReload(c, "Failed to update highlight status", HackathonsApi.table, session, backend, "");
    assert c.outcome.Returned? ==> session;
    forall i | 0 <= i < |r.requests|
      ensures (i < |c.requests| && r.requests[i] == c.requests[i]) || r.requests[i] == Select("hackathons")
    {
    }
    r
  }

  /** The update step alone: every query is an update of that hackathon
      carrying the flipped flag and at most the timestamp besides. */
  lemma ToggleUpdates(h: Listing, session: bool, backend: Backend, now: string)
    ensures var c := ApiUpdate(HackathonsApi, h.id, HighlightPayload(h), session, backend, now);
      forall i :: 0 <= i < |c.requests| ==>
        var q := c.requests[i];
        && q.Update? && q.table == "hackathons" && q.id == h.id
        && "is_highlight" in q.payload && q.payload.Keys <= {"is_highlight", "updated_at"}
        && q.payload["is_highlight"] == VBool(!FlagOf(h.isHighlight))
  {
    var payload := HighlightPayload(h);
    var c := ApiUpdate(HackathonsApi, h.id, payload, session, backend, now);
    var stamped := WithTimestamp(payload, now);
    assert "is_highlight" in stamped && stamped["is_highlight"] == payload["is_highlight"];
    assert forall i :: 0 <= i < |c.requests| ==>
      c.requests[i] == Update("hackathons", h.id, stamped)
      || c.requests[i] == Update("hackathons", h.id, payload);
  }

  /** Merging the toggle into a stored row flips the flag and keeps every
      other column; toggling the result again restores the flag. */
  lemma ToggleChangesOnlyHighlight(row: Row, h: Listing)
    ensures var r := ApplyUpdate(row, HighlightPayload(h));
      && r["is_highlight"] == VBool(!FlagOf(h.isHighlight))
      && forall k :: k in row && k != "is_highlight" ==> r[k] == row[k]
    ensures HighlightPayload(h.(isHighlight := Some(!FlagOf(h.isHighlight))))["is_highlight"]
         == VBool(FlagOf(h.isHighlight))
  {
  }

  /** `handleDelete`: nothing without confirmation; otherwise one delete,
      then a reload of the table when it went through. Both catches show
      `err.message` with no fallback. */
  function DeleteHackathon(h: Listing, confirmed: bool, session: bool, backend: Backend): (r: HandlerRun)
    ensures !confirmed ==> r == HandlerRun([], None)
    ensures confirmed ==> |r.requests| >= 1 && r.requests[0] == Delete("hackathons", h.id)
    ensures confirmed ==>
      (r.requests == [Delete("hackathons", h.id), Select("hackathons")]
       <==> backend.delete("hackathons", h.id).Ok? && session)
    ensures r.banner.None? <==> !confirmed || (backend.delete("hackathons", h.id).Ok? && session && backend.select("hackathons").Ok?)
    ensures confirmed && backend.delete("hackathons", h.id).Err? ==>
      r.banner == Some(TextOr(backend.delete("hackathons", h.id).error.message, ""))
    ensures confirmed && backend.delete("hackathons", h.id).Ok? ==> r.banner == Reload("hackathons", session, backend, "").banner
  {
    ConfirmedDelete(HackathonsApi.table, h.id, confirmed, session, backend, "", "")
  }
}

=== FILE: records.dfy ===
/** The rows the dashboard reads from its backend tables, as typed records
    with optional fields, and the JavaScript truthiness rules the pages use to
    read them (`a || b || ''`). */
module Records {
  import opened Core

  /** A row key: the tables use numeric or textual ids. */
  datatype Id = NumId(n: int) | StrId(s: string)

  /** A text field is truthy when present and non-empty. */
  predicate IsTruthy(a: Option<string>) {
    a.Some? && a.value != ""
  }

  /** `a || fallback`. */
  function TextOr(a: Option<string>, fallback: string): (r: string)
    ensures IsTruthy(a) ==> r == a.value
    ensures !IsTruthy(a) ==> r == fallback
  {
    if IsTruthy(a) then a.value else fallback
  }

  /** `a || ''`. */
  function TextOf(a: Option<string>): string {
    TextOr(a, "")
  }

  /** `a || b || ''`: the first truthy of two fields. */
  function EitherText(a: Option<string>, b: Option<string>): string {
    TextOr(a, TextOf(b))
  }

  /** `flag || false`. */
  function FlagOf(b: Option<bool>): bool {
    b == Some(true)
  }

  /** An event or hackathon row. The two tables drifted apart: a row names
      itself by `name` or `title`, and its organisers by `organisers` or
      `organizer_name`. Instants are local-clock milliseconds. */
  datatype Listing = Listing(
    id: Id,
    name: Option<string>,
    title: Option<string>,
    description: Option<string>,
    location: Option<string>,
    organisers: Option<string>,
    organizerName: Option<string>,
    format: Option<string>,
    link: Option<string>,
    registrationUrl: Option<string>,
    status: Option<string>,
    category: Option<string>,
    startDate: Option<int>,
    startTime: Option<string>,
    endDate: Option<int>,
    postedLinkedin: Option<bool>,
    postedWhatsapp: Option<bool>,
    postedNewsletter: Option<bool>,
    isHighlight: Option<bool>)

  /** A scholarship row; `start_date`/`end_date` are its application window. */
  datatype Scholarship = Scholarship(
    id: Id,
    title: Option<string>,
    shortDescription: Option<string>,
    description: Option<string>,
    location: Option<string>,
    organizerName: Option<string>,
    status: Option<string>,
    category: Option<string>,
    startDate: Option<int>)

  /** A student-club row; `universities` and `topics` may be null. */
  datatype Club = Club(
    id: Id,
    name: Option<string>,
    description: Option<string>,
    link: Option<string>,
    universities: Option<seq<string>>,
    topics: Option<seq<string>>)
}

=== FILE: scholarships.dfy ===
/** The scholarships page: the search box, the chronological view (ordered by
    start date only), the status badge and category colour tables, and the
    guard in front of the link-submission webhook. */
module Scholarships {
  import opened Core
  import opened Text
  import opened Time
  import opened Records
  import opened Search
  import opened Chronology
  import opened Badges
  import opened Api

  // ----- search -----

  /** The fields the search box looks at: title, `short_description ||
      description`, location and organizer name. */
  function ScholarshipFields(s: Scholarship): (fields: seq<string>)
    ensures |fields| == 4
  {
    [TextOf(s.title), EitherText(s.shortDescription, s.description), TextOf(s.location), TextOf(s.organizerName)]
  }

  function FilterScholarships(scholarships: seq<Scholarship>, query: string): (r: seq<Scholarship>)
    ensures IsSubsequence(r, scholarships)
    ensures IsBlank(query) ==> r == scholarships
  {
    ActiveIffNotBlank(query);
    SearchFilter(scholarships, query, ScholarshipFields)
  }

  /** For a query that is not blank, a scholarship is shown exactly when the
      lowercased query occurs in one of its four lowercased fields. */
  lemma FilterScholarshipsMatch(scholarships: seq<Scholarship>, query: string, s: Scholarship)
    requires !IsBlank(query)
    ensures s in FilterScholarships(scholarships, query) <==> (s in scholarships && (
      || Contains(Lower(TextOf(s.title)), Lower(query))
      || Contains(Lower(EitherText(s.shortDescription, s.description)), Lower(query))
      || Contains(Lower(TextOf(s.location)), Lower(query))
      || Contains(Lower(TextOf(s.organizerName)), Lower(query))))
  {
    SearchFour(scholarships, query, ScholarshipFields, s);
  }

  // ----- chronological view -----

  function ScholarshipStart(s: Scholarship): Option<int> {
    s.startDate
  }

  /** The in-day sort key: the start instant itself, 0 when there is none. */
  function ScholarshipTime(s: Scholarship): int {
    s.startDate.GetOr(0)
  }

  function ScholarshipsByDate(filtered: seq<Scholarship>): (gs: seq<DayGroup<Scholarship>>)
    ensures forall g, h :: 0 <= g < h < |gs| ==> gs[g].day < gs[h].day
    ensures forall g :: 0 <= g < |gs| ==> IsDayGroup(filtered, ScholarshipStart, ScholarshipTime, gs[g])
  {
    GroupByDay(filtered, ScholarshipStart, ScholarshipTime)
  }

  /** Inside a day, scholarships are in ascending order of their start
      instant; those with the same start instant keep their list order. */
  lemma ScholarshipsByDateOrder(filtered: seq<Scholarship>, g: nat, i: nat, j: nat)
    requires var gs := ScholarshipsByDate(filtered); g < |gs| && i < j < |gs[g].items|
    ensures var gs := ScholarshipsByDate(filtered);
      var items := gs[g].items;
      && items[i].startDate.Some? && items[j].startDate.Some?
      && items[i].startDate.value <= items[j].startDate.value
      && DayOf(items[i].startDate.value) == gs[g].day
    ensures var gs := ScholarshipsByDate(filtered);
      forall t :: WithKey(gs[g].items, ScholarshipTime, t)
               == WithKey(Filter(filtered, StartsOnDay(ScholarshipStart, gs[g].day)), ScholarshipTime, t)
  {
    var gs := ScholarshipsByDate(filtered);
    var items := gs[g].items;
    assert items[i] in items && items[j] in items;
    DayGroupMembership(filtered, ScholarshipStart, ScholarshipTime, gs[g], items[i]);
    DayGroupMembership(filtered, ScholarshipStart, ScholarshipTime, gs[g], items[j]);
    assert IsDayGroup(filtered, ScholarshipStart, ScholarshipTime, gs[g]);
  }

  /** Every filtered scholarship with a start date is in the group of its
      start day; one without is in no group. */
  lemma ScholarshipsByDatePlacement(filtered: seq<Scholarship>, s: Scholarship)
    ensures var gs := ScholarshipsByDate(filtered);
      && (s in filtered && s.startDate.Some? ==>
            exists g :: 0 <= g < |gs| && gs[g].day == DayOf(s.startDate.value) && s in gs[g].items)
      && (s.startDate.None? ==> forall g :: 0 <= g < |gs| ==> s !in gs[g].items)
  {
    GroupByDayPlacement(filtered, ScholarshipStart, ScholarshipTime, s);
    assert ScholarshipStart(s) == s.startDate;
  }

  // ----- badges -----

  const ScholarshipStatusStyles: map<string, StatusStyle> := map[
    "draft" := StatusStyle("bg-gray-100", "text-gray-800", "Draft"),
    "published" := StatusStyle("bg-green-100", "text-green-800", "Published"),
    "cancelled" := StatusStyle("bg-red-100", "text-red-800", "Cancelled"),
    "completed" := StatusStyle("bg-blue-100", "text-blue-800", "Completed"),
    "postponed" := StatusStyle("bg-yellow-100", "text-yellow-800", "Postponed"),
    "accepting_applications" := StatusStyle("bg-emerald-100", "text-emerald-800", "Accepting Applications"),
    "reviewing" := StatusStyle("bg-purple-100", "text-purple-800", "Reviewing"),
    "awarded" := StatusStyle("bg-indigo-100", "text-indigo-800", "Awarded"),
    "closed" := StatusStyle("bg-gray-100", "text-gray-800", "Closed")]

  const CategoryColors: map<string, string> := map[
    "workshop" := "bg-purple-100 text-purple-800",
    "conference" := "bg-indigo-100 text-indigo-800",
    "meetup" := "bg-pink-100 text-pink-800",
    "webinar" := "bg-cyan-100 text-cyan-800",
    "networking" := "bg-orange-100 text-orange-800",
    "training" := "bg-teal-100 text-teal-800",
    "hackathon" := "bg-emerald-100 text-emerald-800",
    "other" := "bg-gray-100 text-gray-800"]

  /** `getStatusBadge(status)`. */
  function ScholarshipStatusBadge(status: Option<string>): (style: StatusStyle)
    ensures status.Some? && status.value in ScholarshipStatusStyles ==> style == ScholarshipStatusStyles[status.value]
    ensures status.None? || status.value !in ScholarshipStatusStyles ==> style.caption == "Draft"
  {
    LookupOr(ScholarshipStatusStyles, status, "draft")
  }

  /** `getCategoryColor(category)`. */
  function ScholarshipCategoryColor(category: Option<string>): (color: string)
    ensures category.Some? && category.value in CategoryColors ==> color == CategoryColors[category.value]
    ensures category.None? || category.value !in CategoryColors ==> color == "bg-gray-100 text-gray-800"
  {
    LookupOr(CategoryColors, category, "other")
  }

  /** The nine statuses each get a badge of their own: no two captions
      coincide, and only an unlisted status shows "Draft" without being
      "draft". */
  lemma ScholarshipStatusesDistinct(a: string, b: string)
    requires a in ScholarshipStatusStyles && b in ScholarshipStatusStyles && a != b
    ensures ScholarshipStatusBadge(Some(a)).caption != ScholarshipStatusBadge(Some(b)).caption
  {
  }

  // ----- link submission -----

  /** The address the link is posted to. */
  const WEBHOOK_URL := "http://localhost:5678/webhook-test/8e521ce6-0920-44b4-9375-b6ba6f2f38aa"

  /** A POST with a JSON body, as the page would send it. */
  datatype WebhookRequest = WebhookRequest(url: string, body: map<string, string>)

  /** `handleWebhookSubmit` up to the request: nothing is sent for a blank
      link or an empty address; otherwise the trimmed link is posted under
      `scholarship_link`. */
  function WebhookSubmit(link: string, webhookUrl: string): (r: Option<WebhookRequest>)
    ensures r.None? <==> IsBlank(link) || webhookUrl == ""
    ensures r.Some? ==> r.value.url == webhookUrl && r.value.body.Keys == {"scholarship_link"}
    ensures r.Some? ==> var sent := r.value.body["scholarship_link"];
      && sent != ""
      && !IsWhiteSpace(sent[0]) && !IsWhiteSpace(sent[|sent| - 1])
      && exists i :: OccursAt(link, sent, i) && IsBlank(link[..i]) && IsBlank(link[i + |sent|..])
  {
    var sent := Trim(link);
    TrimEmptyIffBlank(link);
    if sent == "" || webhookUrl == "" then None
    else
      var body := map["scholarship_link" := sent];
      assert body.Keys == {"scholarship_link"} && body["scholarship_link"] == sent;
      Some(WebhookRequest(webhookUrl, body))
  }

  /** With the page's fixed address, a request goes out exactly when the link
      has a non-white-space character. */
  lemma WebhookSendsIffNotBlank(link: string)
    ensures WebhookSubmit(link, WEBHOOK_URL).Some? <==> !IsBlank(link)
  {
  }

  // ----- delete -----

  /** `handleDelete`: nothing without confirmation; otherwise one delete,
      then a reload of the table when it went through. Both catches show
      `err.message` with no fallback. */
  function DeleteScholarship(s: Scholarship, confirmed: bool, session: bool, backend: Backend): (r: HandlerRun)
    ensures !confirmed ==> r == HandlerRun([], None)
    ensures confirmed ==> |r.requests| >= 1 && r.requests[0] == Delete("scholarships", s.id)
    ensures confirmed ==>
      (r.requests == [Delete("scholarships", s.id), Select("scholarships")]
       <==> backend.delete("scholarships", s.id).Ok? && session)
    ensures r.banner.None? <==> !confirmed || (backend.delete("scholarships", s.id).Ok? && session && backend.select("scholarships").Ok?)
    ensures confirmed && backend.delete("scholarships", s.id).Err? ==>
      r.banner == Some(TextOr(backend.delete("scholarships", s.id).error.message, ""))
    ensures confirmed && backend.delete("scholarships", s.id).Ok? ==> r.banner == Reload("scholarships", session, backend, "").banner
  {
    ConfirmedDelete(ScholarshipsApi.table, s.id, confirmed, session, backend, "", "")
  }
}

=== FILE: search.dfy ===
/** The search box of the list pages: a query that trims to nothing leaves
    the list as it is; otherwise the lowercased (untrimmed) query must occur
    in at least one of a fixed list of lowercased text fields of a row. */
module Search {
  import opened Core
  import opened Text

  /** `if (searchQuery.trim())`: the search applies. */
  predicate IsActive(query: string) {
    Trim(query) != ""
  }

  lemma ActiveIffNotBlank(query: string)
    ensures IsActive(query) <==> !IsBlank(query)
  {
    TrimEmptyIffBlank(query);
  }

  /** `f1.toLowerCase().includes(q) || f2.toLowerCase().includes(q) || …`
      with `q = query.toLowerCase()`. */
  predicate AnyFieldContains(fields: seq<string>, query: string) {
    exists i :: 0 <= i < |fields| && Contains(Lower(fields[i]), Lower(query))
  }

  /** A four-field row matches iff one of its four fields does. */
  lemma AnyOfFour(fields: seq<string>, query: string)
    requires |fields| == 4
    ensures AnyFieldContains(fields, query) <==>
      || Contains(Lower(fields[0]), Lower(query)) || Contains(Lower(fields[1]), Lower(query))
      || Contains(Lower(fields[2]), Lower(query)) || Contains(Lower(fields[3]), Lower(query))
  {
  }

  /** A five-field row matches iff one of its five fields does. */
  lemma AnyOfFive(fields: seq<string>, query: string)
    requires |fields| == 5
    ensures AnyFieldContains(fields, query) <==>
      || Contains(Lower(fields[0]), Lower(query)) || Contains(Lower(fields[1]), Lower(query))
      || Contains(Lower(fields[2]), Lower(query)) || Contains(Lower(fields[3]), Lower(query))
      || Contains(Lower(fields[4]), Lower(query))
  {
  }

  /** Membership in an active search over four fields, field by field. */
  lemma SearchFour<T>(xs: seq<T>, query: string, fields: T -> seq<string>, x: T)
    requires !IsBlank(query) && |fields(x)| == 4
    ensures var f := fields(x);
      x in SearchFilter(xs, query, fields) <==> (x in xs && (
        || Contains(Lower(f[0]), Lower(query)) || Contains(Lower(f[1]), Lower(query))
        || Contains(Lower(f[2]), Lower(query)) || Contains(Lower(f[3]), Lower(query))))
  {
    ActiveIffNotBlank(query);
    AnyOfFour(fields(x), query);
  }

  /** Membership in an active search over five fields, field by field. */
  lemma SearchFive<T>(xs: seq<T>, query: string, fields: T -> seq<string>, x: T)
    requires !IsBlank(query) && |fields(x)| == 5
    ensures var f := fields(x);
      x in SearchFilter(xs, query, fields) <==> (x in xs && (
        || Contains(Lower(f[0]), Lower(query)) || Contains(Lower(f[1]), Lower(query))
        || Contains(Lower(f[2]), Lower(query)) || Contains(Lower(f[3]), Lower(query))
        || Contains(Lower(f[4]), Lower(query))))
  {
    ActiveIffNotBlank(query);
    AnyOfFive(fields(x), query);
  }

  function MatchesQuery<T>(fields: T -> seq<string>, query: string): T -> bool {
    (x: T) => AnyFieldContains(fields(x), query)
  }

  /** The filtered list a page shows for `query`: a row is shown exactly
      when it is in the list and, if the search applies, one of its fields
      contains the query; the rows shown keep the list's order. */
  function SearchFilter<T>(xs: seq<T>, query: string, fields: T -> seq<string>): (r: seq<T>)
    ensures !IsActive(query) ==> r == xs
    ensures forall i :: 0 <= i < |r| ==> r[i] in xs && (IsActive(query) ==> AnyFieldContains(fields(r[i]), query))
    ensures forall i :: 0 <= i < |xs| && (IsActive(query) ==> AnyFieldContains(fields(xs[i]), query)) ==> xs[i] in r
    ensures IsSubsequence(r, xs)
  {
    if IsActive(query) then
      var p := MatchesQuery(fields, query);
      forall i | 0 <= i < |Filter(xs, p)| ensures Filter(xs, p)[i] in xs && p(Filter(xs, p)[i]) {
        FilterMembership(xs, p, Filter(xs, p)[i]);
      }
      forall i | 0 <= i < |xs| && p(xs[i]) ensures xs[i] in Filter(xs, p) {
        FilterMembership(xs, p, xs[i]);
      }
      FilterIsSubsequence(xs, p);
      Filter(xs, p)
    else
      SubsequenceOfSelf(xs);
      xs
  }

  /** A blank (empty or white-space only) query shows the whole list, in
      order. */
  lemma BlankQueryShowsAll<T>(xs: seq<T>, query: string, fields: T -> seq<string>)
    requires IsBlank(query)
    ensures SearchFilter(xs, query, fields) == xs
  {
    ActiveIffNotBlank(query);
  }

  /** The query is matched untrimmed: surrounding spaces must occur in the
      field too. */
  lemma UntrimmedQuery()
    ensures IsActive(" tum")
    ensures !AnyFieldContains(["TUM"], " tum")
  {
    SpacedQueryActive();
    SpacedQueryMisses();
  }

  lemma SpacedQueryActive()
    ensures IsActive(" tum")
  {
    assert !IsWhiteSpace(" tum"[1]);
    ActiveIffNotBlank(" tum");
  }

  lemma SpacedQueryMisses()
    ensures !AnyFieldContains(["TUM"], " tum")
  {
    var fields, q := ["TUM"], Lower(" tum");
    forall i | 0 <= i < |fields| ensures !Contains(Lower(fields[i]), q) {
      var f := Lower(fields[i]);
      assert |f| == 3 && |q| == 4;
      if Contains(f, q) {
        ContainsLength(f, q);
      }
    }
  }
}

=== FILE: student_clubs.dfy ===
/** The student-clubs page: a search over three text fields and the two list
    fields joined with ", ", and the confirmed delete. */
module StudentClubs {
  import opened Core
  import opened Text
  import opened Records
  import opened Search
  import opened Api

  /** `(list || []).join(', ')`: a missing list joins to "". */
  function JoinedList(list: Option<seq<string>>): string {
    Join(list.GetOr([]), ", ")
  }

  /** The fields the search box looks at: name, description, link, and the
      universities and topics joined with ", ". */
  function ClubFields(c: Club): (fields: seq<string>)
    ensures |fields| == 5
  {
    [TextOf(c.name), TextOf(c.description), TextOf(c.link), JoinedList(c.universities), JoinedList(c.topics)]
  }

  /** `filteredClubs`: the list itself for a blank query. */
  function FilterClubs(clubs: seq<Club>, query: string): (r: seq<Club>)
    ensures IsSubsequence(r, clubs)
    ensures IsBlank(query) ==> r == clubs
  {
    ActiveIffNotBlank(query);
    SearchFilter(clubs, query, ClubFields)
  }

  /** For a query that is not blank, a club is shown exactly when the
      lowercased query occurs in one of its five lowercased fields. */
  lemma FilterClubsMatch(clubs: seq<Club>, query: string, c: Club)
    requires !IsBlank(query)
    ensures c in FilterClubs(clubs, query) <==> (c in clubs && (
      || Contains(Lower(TextOf(c.name)), Lower(query))
      || Contains(Lower(TextOf(c.description)), Lower(query))
      || Contains(Lower(TextOf(c.link)), Lower(query))
      || Contains(Lower(JoinedList(c.universities)), Lower(query))
      || Contains(Lower(JoinedList(c.topics)), Lower(query))))
  {
    SearchFive(clubs, query, ClubFields, c);
  }

  /** A null list searches exactly like an empty one. */
  lemma NullListIsEmpty(c: Club)
    ensures ClubFields(c.(universities := None)) == ClubFields(c.(universities := Some([])))
    ensures ClubFields(c.(topics := None)) == ClubFields(c.(topics := Some([])))
  {
  }

  /** Because the lists are joined with ", ", a query naming two neighbouring
      universities, such as "tum, lmu", finds the club. */
  lemma AdjacentUniversitiesMatch(clubs: seq<Club>, c: Club, i: nat)
    requires c in clubs && c.universities.Some?
    requires i + 1 < |c.universities.value|
    requires var q := c.universities.value[i] + ", " + c.universities.value[i + 1]; !IsBlank(q)
    ensures c in FilterClubs(clubs, c.universities.value[i] + ", " + c.universities.value[i + 1])
  {
    var list := c.universities.value;
    var q := list[i] + ", " + list[i + 1];
    JoinContainsAdjacent(list, ", ", i);
    ContainsLower(JoinedList(c.universities), q);
    FilterClubsMatch(clubs, q, c);
  }

  /** The concrete case: a club at TUM and LMU is found by "tum, lmu". */
  lemma TumLmuExample(c: Club)
    requires c.universities == Some(["TUM", "LMU"])
    ensures c in FilterClubs([c], "tum, lmu")
  {
    var q := "TUM" + ", " + "LMU";
    assert c.universities.value[0] + ", " + c.universities.value[1] == q;
    assert !IsWhiteSpace(q[0]);
    JoinContainsAdjacent(["TUM", "LMU"], ", ", 0);
    ContainsLower(JoinedList(c.universities), q);
    assert Lower(q) == Lower("tum, lmu");
    assert !IsWhiteSpace("tum, lmu"[0]);
    FilterClubsMatch([c], "tum, lmu", c);
  }

  /** What `handleDelete` leaves behind: the handler run and the success
      notice it showed, if any. */
  datatype ClubDeleteRun = ClubDeleteRun(run: HandlerRun, notice: Option<string>)

  const DELETED_NOTICE := "Student club deleted successfully!"

  /** `handleDelete`: nothing without confirmation; otherwise the banner is
      cleared, the club deleted and, when that went through, the table
      reloaded and the success notice shown, even when the reload failed.
      Both catches have a fallback, so the banner is non-empty exactly when
      the delete or the reload failed. */
  function DeleteClub(c: Club, confirmed: bool, session: bool, backend: Backend): (d: ClubDeleteRun)
    ensures !confirmed ==> d == ClubDeleteRun(HandlerRun([], None), None)
    ensures confirmed ==> |d.run.requests| >= 1 && d.run.requests[0] == Delete("student_clubs", c.id)
    ensures confirmed ==>
      (d.run.requests == [Delete("student_clubs", c.id), Select("student_clubs")]
       <==> backend.delete("student_clubs", c.id).Ok? && session)
    ensures confirmed ==> d.run.banner.Some?
    ensures confirmed ==>
      (d.run.banner.value == ""
       <==> backend.delete("student_clubs", c.id).Ok? && session && backend.select("student_clubs").Ok?)
    ensures confirmed && backend.delete("student_clubs", c.id).Err? && !IsTruthy(backend.delete("student_clubs", c.id).error.message) ==>
      d.run.banner == Some("Failed to delete student club")
    ensures d.notice.Some? <==> confirmed && backend.delete("student_clubs", c.id).Ok?
    ensures d.notice.Some? ==> d.notice.value == DELETED_NOTICE
  {
    var run := ConfirmedDelete(StudentClubsApi.table, c.id, confirmed, session, backend,
                               "Failed to delete student club", "Failed to load student clubs");
    if !confirmed then ClubDeleteRun(run, None)
    else
      var banner := if run.banner.Some? then run.banner else Some("");
      var deleted := backend.delete(StudentClubsApi.table, c.id).Ok?;
      ClubDeleteRun(run.(banner := banner), if deleted then Some(DELETED_NOTICE) else None)
  }
}

=== FILE: text.dfy ===
/** The JavaScript string operations the dashboard relies on, over
    `seq<char>`: trimming, ASCII case mapping, substring search, splitting,
    joining, first-occurrence replacement, number formatting and `parseInt`. */
module Text {
  import opened Core

  /** The characters ECMAScript's `trim` and `parseInt` skip: white space and
      line terminators (section 12.2 and 12.3 of ECMA-262). */
  predicate IsWhiteSpace(c: char) {
    c == ' ' || c == '\t' || c == '\n' || c == '\r' || c == '\U{000B}' || c == '\U{000C}'
    || c == '\U{00A0}' || c == '\U{FEFF}' || c == '\U{1680}' || ('\U{2000}' <= c <= '\U{200A}')
    || c == '\U{2028}' || c == '\U{2029}' || c == '\U{202F}' || c == '\U{205F}' || c == '\U{3000}'
  }

  /** Every character is white space (the empty string included). */
  predicate IsBlank(s: string) {
    forall i :: 0 <= i < |s| ==> IsWhiteSpace(s[i])
  }

  function TrimStart(s: string): (r: string)
    ensures |r| <= |s| && r == s[|s| - |r|..]
    ensures IsBlank(s[..|s| - |r|])
    ensures |r| > 0 ==> !IsWhiteSpace(r[0])
  {
    if |s| > 0 && IsWhiteSpace(s[0]) then
      var r := TrimStart(s[1..]);
      var k := |s| - |r|;
      forall i | 0 <= i < k ensures IsWhiteSpace(s[..k][i]) {
        if i > 0 { assert s[..k][i] == s[1..][..k - 1][i - 1]; }
      }
      assert s[1..][k - 1..] == s[k..];
      r
    else s
  }

  function TrimEnd(s: string): (r: string)
    ensures |r| <= |s| && r == s[..|r|]
    ensures IsBlank(s[|r|..])
    ensures |r| > 0 ==> !IsWhiteSpace(r[|r| - 1])
  {
    if |s| > 0 && IsWhiteSpace(s[|s| - 1]) then
      var r := TrimEnd(s[..|s| - 1]);
      var n := |s| - 1;
      var t := s[|r|..];
      forall j | 0 <= j < |t| ensures IsWhiteSpace(t[j]) {
        if |r| + j < n { assert t[j] == s[..n][|r|..][j]; } else { assert t[j] == s[n]; }
      }
      assert s[..n][..|r|] == s[..|r|];
      r
    else s
  }

  /** `sub` occurs in `s` starting at index `i`. */
  predicate OccursAt(s: string, sub: string, i: int) {
    0 <= i && i + |sub| <= |s| && s[i..i + |sub|] == sub
  }

  /** `String.prototype.trim`: `s` is `r` surrounded by white space only, and
      `r` neither starts nor ends with white space. */
  function Trim(s: string): (r: string)
    ensures |r| > 0 ==> !IsWhiteSpace(r[0]) && !IsWhiteSpace(r[|r| - 1])
    ensures exists i :: OccursAt(s, r, i) && IsBlank(s[..i]) && IsBlank(s[i + |r|..])
  {
    var t := TrimStart(s);
    var r := TrimEnd(t);
    TrimWitness(s, t, r);
    assert |r| > 0 ==> r[0] == t[0];
    r
  }

  /** Trimming the front and then the back leaves a piece of `s` framed by
      white space. */
  lemma TrimWitness(s: string, t: string, r: string)
    requires |t| <= |s| && t == s[|s| - |t|..] && IsBlank(s[..|s| - |t|])
    requires |r| <= |t| && r == t[..|r|] && IsBlank(t[|r|..])
    ensures var i := |s| - |t|; OccursAt(s, r, i) && IsBlank(s[..i]) && IsBlank(s[i + |r|..])
  {
    var i := |s| - |t|;
    assert s[i..i + |r|] == t[..|r|];
    assert s[i + |r|..] == t[|r|..];
  }

  /** A trimmed string is empty exactly when the input is blank: the test
      `if (query.trim())` the search boxes perform. */
  lemma TrimEmptyIffBlank(s: string)
    ensures Trim(s) == "" <==> IsBlank(s)
  {
    var r := Trim(s);
    var i :| OccursAt(s, r, i) && IsBlank(s[..i]) && IsBlank(s[i + |r|..]);
    if r == "" {
      assert IsBlank(s[i..]);
      forall j | 0 <= j < |s| ensures IsWhiteSpace(s[j]) {
        if j < i { assert s[..i][j] == s[j]; } else { assert s[i..][j - i] == s[j]; }
      }
    } else {
      assert r[0] == s[i] && !IsWhiteSpace(s[i]);
    }
  }

  // ----- ASCII case mapping (`toLowerCase` / `toUpperCase`) -----

  function LowerChar(c: char): char {
    if 'A' <= c <= 'Z' then (c as int + 32) as char else c
  }

  function UpperChar(c: char): char {
    if 'a' <= c <= 'z' then (c as int - 32) as char else c
  }

  function Lower(s: string): (r: string)
    ensures |r| == |s|
  {
    seq(|s|, i requires 0 <= i < |s| => LowerChar(s[i]))
  }

  lemma LowerConcat(a: string, b: string)
    ensures Lower(a + b) == Lower(a) + Lower(b)
  {
  }

  /** `s.charAt(0).toUpperCase() + s.slice(1)`. */
  function UpperFirst(s: string): (r: string)
    ensures |r| == |s|
    ensures |s| > 0 ==> r[0] == UpperChar(s[0]) && r[1..] == s[1..]
  {
    if |s| == 0 then "" else [UpperChar(s[0])] + s[1..]
  }

  // ----- substring search (`String.prototype.includes`) -----

  predicate IsPrefix(p: string, s: string) {
    |p| <= |s| && s[..|p|] == p
  }

  /** `s.includes(sub)`, defined by scanning start positions left to right. */
  predicate Contains(s: string, sub: string)
    decreases |s|
  {
    IsPrefix(sub, s) || (|s| > 0 && Contains(s[1..], sub))
  }

  /** The scanning definition agrees with "occurs at some index". */
  lemma {:induction false} ContainsIffOccurs(s: string, sub: string)
    ensures Contains(s, sub) <==> exists i :: OccursAt(s, sub, i)
    decreases |s|
  {
    if IsPrefix(sub, s) {
      assert OccursAt(s, sub, 0);
    } else if |s| > 0 {
      ContainsIffOccurs(s[1..], sub);
      if Contains(s[1..], sub) {
        var i :| OccursAt(s[1..], sub, i);
        assert s[1..][i..i + |sub|] == s[i + 1..i + 1 + |sub|];
        assert OccursAt(s, sub, i + 1);
      }
      if i :| OccursAt(s, sub, i) {
        assert i != 0;
        assert s[1..][i - 1..i - 1 + |sub|] == s[i..i + |sub|];
        assert OccursAt(s[1..], sub, i - 1);
      }
    } else {
      assert forall i :: !OccursAt(s, sub, i);
    }
  }

  /** Only something no longer than `s` can occur in it. */
  lemma ContainsLength(s: string, sub: string)
    requires Contains(s, sub)
    ensures |sub| <= |s|
  {
    ContainsIffOccurs(s, sub);
  }

  /** A string contains everything that occurs in one of its pieces. */
  lemma ContainsInContext(a: string, b: string, c: string, sub: string)
    requires Contains(b, sub)
    ensures Contains(a + b + c, sub)
  {
    ContainsIffOccurs(b, sub);
    var i :| OccursAt(b, sub, i);
    var s := a + b + c;
    assert s[|a| + i..|a| + i + |sub|] == b[i..i + |sub|];
    assert OccursAt(s, sub, |a| + i);
    ContainsIffOccurs(s, sub);
  }

  lemma ContainsSelf(s: string)
    ensures Contains(s, s)
  {
    assert IsPrefix(s, s);
  }

  // ----- split and join -----

  /** `s.split(c)` for a one-character separator. */
  function Split(s: string, c: char): (parts: seq<string>)
    ensures |parts| >= 1
    ensures forall i :: 0 <= i < |parts| ==> c !in parts[i]
  {
    if |s| == 0 then [""]
    else
      var rest := Split(s[1..], c);
      if s[0] == c then [""] + rest
      else [[s[0]] + rest[0]] + rest[1..]
  }

  /** `parts.join(sep)`. */
  function Join(parts: seq<string>, sep: string): string {
    if |parts| == 0 then ""
    else if |parts| == 1 then parts[0]
    else parts[0] + sep + Join(parts[1..], sep)
  }

  /** Splitting and joining back with the same separator gives the input. */
  lemma {:induction false} SplitJoin(s: string, c: char)
    ensures Join(Split(s, c), [c]) == s
  {
    if |s| > 0 {
      SplitJoin(s[1..], c);
      var rest := Split(s[1..], c);
      assert s == [s[0]] + s[1..];
      if s[0] != c {
        var parts := Split(s, c);
        assert parts[1..] == rest[1..];
        if |rest| > 1 {
          assert rest == [rest[0]] + rest[1..];
        }
      }
    }
  }

  function CountChar(s: string, c: char): nat {
    if |s| == 0 then 0 else (if s[0] == c then 1 else 0) + CountChar(s[1..], c)
  }

  /** There is one more piece than there are separators. */
  lemma {:induction false} SplitLength(s: string, c: char)
    ensures |Split(s, c)| == CountChar(s, c) + 1
  {
    if |s| > 0 {
      SplitLength(s[1..], c);
    }
  }

  lemma {:induction false} CountCharAbsent(s: string, c: char)
    ensures c !in s <==> CountChar(s, c) == 0
  {
    if |s| > 0 {
      CountCharAbsent(s[1..], c);
      assert s == [s[0]] + s[1..];
    }
  }

  /** A string without the separator splits into itself. */
  lemma {:induction false} SplitNoSeparator(s: string, c: char)
    requires c !in s
    ensures Split(s, c) == [s]
  {
    if |s| > 0 {
      assert s == [s[0]] + s[1..];
      SplitNoSeparator(s[1..], c);
    }
  }

  /** The first piece runs up to the first separator. */
  lemma {:induction false} SplitAtSeparator(a: string, c: char, b: string)
    requires c !in a
    ensures Split(a + [c] + b, c) == [a] + Split(b, c)
  {
    if |a| == 0 {
      assert a + [c] + b == [c] + b;
      assert ([c] + b)[1..] == b;
    } else {
      assert (a + [c] + b)[1..] == a[1..] + [c] + b;
      assert a == [a[0]] + a[1..];
      SplitAtSeparator(a[1..], c, b);
    }
  }

  /** Appending a separator and a separator-free tail adds one last piece. */
  lemma {:induction false} SplitSuffix(s: string, c: char, t: string)
    requires c !in t
    ensures Split(s + [c] + t, c) == Split(s, c) + [t]
  {
    if |s| == 0 {
      assert s + [c] + t == [c] + t;
      assert ([c] + t)[1..] == t;
      SplitNoSeparator(t, c);
    } else {
      assert (s + [c] + t)[1..] == s[1..] + [c] + t;
      SplitSuffix(s[1..], c, t);
    }
  }

  /** Every entry occurs in the joined string. */
  lemma {:induction false} JoinContainsPart(parts: seq<string>, sep: string, i: nat)
    requires i < |parts|
    ensures Contains(Join(parts, sep), parts[i])
  {
    if |parts| == 1 {
      ContainsSelf(parts[0]);
      assert Join(parts, sep) == "" + parts[0] + "";
    } else if i == 0 {
      ContainsSelf(parts[0]);
      ContainsInContext("", parts[0], sep + Join(parts[1..], sep), parts[0]);
      assert "" + parts[0] + (sep + Join(parts[1..], sep)) == Join(parts, sep);
    } else {
      JoinContainsPart(parts[1..], sep, i - 1);
      assert parts[1..][i - 1] == parts[i];
      ContainsInContext(parts[0] + sep, Join(parts[1..], sep), "", parts[i]);
      assert parts[0] + sep + Join(parts[1..], sep) + "" == Join(parts, sep);
    }
  }

  /** A join starts with its first entry. */
  lemma JoinHead(parts: seq<string>, sep: string)
    requires |parts| >= 1
    ensures |parts[0]| <= |Join(parts, sep)|
    ensures Join(parts, sep) == parts[0] + Join(parts, sep)[|parts[0]|..]
  {
  }

  /** Two neighbouring entries occur in the joined string with the separator
      between them. */
  lemma {:induction false} JoinContainsAdjacent(parts: seq<string>, sep: string, i: nat)
    requires i + 1 < |parts|
    ensures Contains(Join(parts, sep), parts[i] + sep + parts[i + 1])
  {
    var rest := Join(parts[1..], sep);
    assert Join(parts, sep) == parts[0] + sep + rest;
    if i == 0 {
      JoinHead(parts[1..], sep);
      var tail := rest[|parts[1]|..];
      var pair := parts[0] + sep + parts[1];
      assert Join(parts, sep) == "" + pair + tail;
      ContainsSelf(pair);
      ContainsInContext("", pair, tail, pair);
    } else {
      JoinContainsAdjacent(parts[1..], sep, i - 1);
      assert parts[1..][i - 1] == parts[i] && parts[1..][i] == parts[i + 1];
      ContainsInContext(parts[0] + sep, rest, "", parts[i] + sep + parts[i + 1]);
      assert parts[0] + sep + rest + "" == Join(parts, sep);
    }
  }

  /** Lowercasing both sides keeps an occurrence. */
  lemma ContainsLower(s: string, sub: string)
    requires Contains(s, sub)
    ensures Contains(Lower(s), Lower(sub))
  {
    ContainsIffOccurs(s, sub);
    var i :| OccursAt(s, sub, i);
    assert Lower(s)[i..i + |sub|] == Lower(sub);
    assert OccursAt(Lower(s), Lower(sub), i);
    ContainsIffOccurs(Lower(s), Lower(sub));
  }

  // ----- first-occurrence replacement (`s.replace('-', ' ')`) -----

  /** `i` is the index of the first occurrence of `c` in `s`. */
  predicate IsFirstAt(s: string, c: char, i: int) {
    0 <= i < |s| && s[i] == c && c !in s[..i]
  }

  function ReplaceFirst(s: string, from: char, to: char): (r: string)
    ensures |r| == |s|
    ensures from !in s ==> r == s
    ensures forall i :: IsFirstAt(s, from, i) ==> r == s[..i] + [to] + s[i + 1..]
  {
    if |s| == 0 then s
    else if s[0] == from then
      assert forall i :: IsFirstAt(s, from, i) ==> i == 0;
      [to] + s[1..]
    else
      var rest := ReplaceFirst(s[1..], from, to);
      var r := [s[0]] + rest;
      forall i | IsFirstAt(s, from, i) ensures r == s[..i] + [to] + s[i + 1..] {
        assert s[1..][..i - 1] == s[..i][1..];
        assert IsFirstAt(s[1..], from, i - 1);
        assert rest == s[1..][..i - 1] + [to] + s[1..][i..];
        assert s[1..][i..] == s[i + 1..];
        assert s[..i] == [s[0]] + s[1..][..i - 1];
      }
      assert from !in s ==> from !in s[1..] && s == [s[0]] + s[1..];
      r
  }

  // ----- decimal formatting (`n.toString()`, `padStart`) -----

  predicate IsDecimalDigit(c: char) {
    '0' <= c <= '9'
  }

  function DigitChar(d: nat): (c: char)
    requires d < 10
    ensures IsDecimalDigit(c)
  {
    ('0' as int + d) as char
  }

  /** `n.toString()` for a non-negative integer. */
  function NatToString(n: nat): (r: string)
    ensures |r| >= 1
    ensures forall i :: 0 <= i < |r| ==> IsDecimalDigit(r[i])
    ensures n < 10 ==> |r| == 1
    ensures 10 <= n < 100 ==> |r| == 2
  {
    if n < 10 then [DigitChar(n)] else NatToString(n / 10) + [DigitChar(n % 10)]
  }

  /** `s.padStart(width, c)` for a one-character pad. */
  function PadStart(s: string, width: nat, c: char): (r: string)
    ensures |r| == if |s| < width then width else |s|
    ensures r[|r| - |s|..] == s
    ensures forall i :: 0 <= i < |r| - |s| ==> r[i] == c
  {
    if |s| >= width then s else seq(width - |s|, _ => c) + s
  }

  /** `n.toString().padStart(2, '0')`: a clock field. */
  function TwoDigits(n: nat): (r: string)
    ensures n < 100 ==> |r| == 2
    ensures forall i :: 0 <= i < |r| ==> IsDecimalDigit(r[i])
  {
    PadStart(NatToString(n), 2, '0')
  }

  // ----- parseInt -----

  /** The value of `c` as a digit in base 10 or 16, if it is one. */
  function DigitValue(c: char, radix: nat): Option<nat> {
    if '0' <= c <= '9' then Some(c as int - '0' as int)
    else if radix == 16 && 'a' <= c <= 'f' then Some(c as int - 'a' as int + 10)
    else if radix == 16 && 'A' <= c <= 'F' then Some(c as int - 'A' as int + 10)
    else None
  }

  predicate AllDigits(s: string, radix: nat) {
    forall i :: 0 <= i < |s| ==> DigitValue(s[i], radix).Some?
  }

  /** The length of the longest prefix of `s` made of digits. */
  function DigitRun(s: string, radix: nat): (n: nat)
    ensures n <= |s|
    ensures AllDigits(s[..n], radix)
    ensures n < |s| ==> DigitValue(s[n], radix).None?
  {
    if |s| == 0 || DigitValue(s[0], radix).None? then 0
    else
      var n := 1 + DigitRun(s[1..], radix);
      assert s[..n] == [s[0]] + s[1..][..n - 1];
      n
  }

  /** Positional value, most significant digit first. */
  function DigitsValue(s: string, radix: nat): nat
    requires AllDigits(s, radix)
  {
    if |s| == 0 then 0
    else DigitsValue(s[..|s| - 1], radix) * radix + DigitValue(s[|s| - 1], radix).value
  }

  /** `parseInt(s)` with no radix argument; `None` is `NaN`. Leading white
      space is skipped, one sign is accepted, a `0x`/`0X` prefix selects base
      16, and the longest run of digits that follows is read. */
  function ParseInt(s: string): Option<int> {
    var t := TrimStart(s);
    var negative := |t| > 0 && t[0] == '-';
    var u := if |t| > 0 && (t[0] == '-' || t[0] == '+') then t[1..] else t;
    var hex := |u| >= 2 && u[0] == '0' && (u[1] == 'x' || u[1] == 'X');
    var radix := if hex then 16 else 10;
    var v := if hex then u[2..] else u;
    var n := DigitRun(v, radix);
    if n == 0 then None
    else
      var magnitude: int := DigitsValue(v[..n], radix);
      Some(if negative then -magnitude else magnitude)
  }

  /** `parseInt(s) || 0`: `NaN` (and zero) become zero. */
  function ParseIntOrZero(s: string): int {
    ParseInt(s).GetOr(0)
  }

  /** A string of decimal digits that is not a hexadecimal prefix parses to
      its positional value. */
  lemma ParseDecimal(s: string)
    requires |s| >= 1 && forall i :: 0 <= i < |s| ==> IsDecimalDigit(s[i])
    ensures AllDigits(s, 10)
    ensures ParseInt(s) == Some(DigitsValue(s, 10))
  {
    assert AllDigits(s, 10) by {
      forall i | 0 <= i < |s| ensures DigitValue(s[i], 10).Some? {
        assert IsDecimalDigit(s[i]);
      }
    }
    assert !IsWhiteSpace(s[0]) by { assert IsDecimalDigit(s[0]); }
    assert TrimStart(s) == s;
    assert !(s[0] == '-' || s[0] == '+') by { assert IsDecimalDigit(s[0]); }
    assert !(|s| >= 2 && s[0] == '0' && (s[1] == 'x' || s[1] == 'X')) by {
      if |s| >= 2 { assert IsDecimalDigit(s[1]); }
    }
    DigitRunAll(s, 10);
    assert s[..|s|] == s;
  }

  lemma {:induction false} DigitRunAll(s: string, radix: nat)
    requires AllDigits(s, radix)
    ensures DigitRun(s, radix) == |s|
  {
    if |s| > 0 {
      DigitRunAll(s[1..], radix);
    }
  }

  /** Formatting and parsing are inverse: `parseInt(String(n)) === n`. */
  lemma NatToStringValue(n: nat)
    ensures AllDigits(NatToString(n), 10)
    ensures DigitsValue(NatToString(n), 10) == n
  {
    if n >= 10 {
      NatToStringValue(n / 10);
      var s := NatToString(n);
      assert s[..|s| - 1] == NatToString(n / 10);
    }
  }

  lemma ParseNatToString(n: nat)
    ensures ParseInt(NatToString(n)) == Some(n)
  {
    NatToStringValue(n);
    ParseDecimal(NatToString(n));
  }

  /** Left-padding with zeros does not change the parsed value. */
  lemma ParsePaddedNat(n: nat, width: nat)
    ensures ParseInt(PadStart(NatToString(n), width, '0')) == Some(n)
  {
    var s := NatToString(n);
    var p := PadStart(s, width, '0');
    if |s| >= width {
      ParseNatToString(n);
    } else {
      NatToStringValue(n);
      ZerosValue(p, |p| - |s|);
      assert p[|p| - |s|..] == s;
      ParseDecimal(p);
    }
  }

  /** Leading zeros add nothing to a decimal value. */
  lemma {:induction false} ZerosValue(p: string, z: nat)
    requires z <= |p|
    requires forall i :: 0 <= i < z ==> p[i] == '0'
    requires forall i :: z <= i < |p| ==> IsDecimalDigit(p[i])
    ensures AllDigits(p, 10) && AllDigits(p[z..], 10)
    ensures DigitsValue(p, 10) == DigitsValue(p[z..], 10)
    decreases |p|
  {
    assert AllDigits(p, 10);
    if |p| == z {
      if z > 0 {
        var q := p[..|p| - 1];
        ZerosValue(q, z - 1);
        assert q[z - 1..] == [];
      }
    } else {
      var q := p[..|p| - 1];
      ZerosValue(q, z);
      assert p[z..][..|p[z..]| - 1] == q[z..];
    }
  }
}

=== FILE: time.dfy ===
/** Instants and calendar days. An instant is a count of milliseconds on the
    local wall clock (the time-zone offset already applied), so a day is
    always 86 400 000 ms long; a day number counts days from 1 January 1970. */
module Time {

  const MINUTE_MS: int := 60_000
  const HOUR_MS: int := 3_600_000
  const DAY_MS: int := 86_400_000

  /** The day an instant falls on (rounding toward minus infinity). */
  function DayOf(t: int): int {
    t / DAY_MS
  }

  /** The first instant of a day. */
  function Midnight(day: int): int {
    day * DAY_MS
  }

  /** `startOfDay(t)`. */
  function StartOfDay(t: int): (r: int)
    ensures r <= t < r + DAY_MS
    ensures DayOf(r) == DayOf(t)
  {
    Midnight(DayOf(t))
  }

  /** An instant lies on day `d` exactly when it lies between that day's
      midnight and the next one. */
  lemma DayOfIff(t: int, d: int)
    ensures DayOf(t) == d <==> Midnight(d) <= t < Midnight(d + 1)
  {
    var q := DayOf(t);
    assert Midnight(q) <= t < Midnight(q + 1);
    if q < d {
      assert Midnight(q + 1) <= Midnight(d);
    } else if q > d {
      assert Midnight(d + 1) <= Midnight(q);
    }
  }

  lemma DayOfMidnight(d: int)
    ensures DayOf(Midnight(d)) == d
  {
    DayOfIff(Midnight(d), d);
  }

  /** `getHours()` and `getMinutes()` on the local clock. */
  function HoursOf(t: int): (h: nat)
    ensures h < 24
  {
    (t - StartOfDay(t)) / HOUR_MS
  }

  function MinutesOf(t: int): (m: nat)
    ensures m < 60
  {
    (t - StartOfDay(t)) % HOUR_MS / MINUTE_MS
  }

  /** The clock reading of `t` truncated to the minute is made of its hours
      and minutes. */
  lemma ClockReading(t: int)
    ensures StartOfDay(t) + HoursOf(t) * HOUR_MS + MinutesOf(t) * MINUTE_MS
         == t - (t - StartOfDay(t)) % MINUTE_MS
  {
    var x := t - StartOfDay(t);
    assert x == x / HOUR_MS * HOUR_MS + x % HOUR_MS;
    var y := x % HOUR_MS;
    assert y == y / MINUTE_MS * MINUTE_MS + y % MINUTE_MS;
    assert x % MINUTE_MS == y % MINUTE_MS by {
      assert x == (x / HOUR_MS * 60) * MINUTE_MS + y;
    }
  }

  /** Setting the clock lands on a whole minute of the day, whatever the
      hours and minutes (out-of-range values carry into other days). */
  lemma SetHoursMinutesWholeMinute(t: int, h: int, m: int)
    ensures (SetHoursMinutes(t, h, m) - StartOfDay(t)) % MINUTE_MS == 0
  {
    var k := h * 60 + m;
    assert h * HOUR_MS + m * MINUTE_MS == k * MINUTE_MS;
    assert SetHoursMinutes(t, h, m) - StartOfDay(t) == k * MINUTE_MS;
  }

  /** Setting an instant's clock to its own hours and minutes truncates it to
      the minute. */
  lemma SetOwnClock(t: int)
    ensures SetHoursMinutes(t, HoursOf(t), MinutesOf(t)) == t - (t - StartOfDay(t)) % MINUTE_MS
  {
    ClockReading(t);
  }

  /** `date.setHours(h, m, 0, 0)`: keeps the day and sets the clock to h:m,
      letting out-of-range hours and minutes roll over into neighbouring
      days as ECMAScript's MakeTime/MakeDate do. */
  function SetHoursMinutes(t: int, h: int, m: int): (r: int)
    ensures 0 <= h < 24 && 0 <= m < 60 ==>
      DayOf(r) == DayOf(t) && HoursOf(r) == h && MinutesOf(r) == m && (r - StartOfDay(r)) % MINUTE_MS == 0
  {
    var r := StartOfDay(t) + h * HOUR_MS + m * MINUTE_MS;
    if 0 <= h < 24 && 0 <= m < 60 then
      DayOfIff(r, DayOf(t));
      assert StartOfDay(r) == StartOfDay(t);
      r
    else r
  }

  /** `getDay()`: 0 is Sunday, 1 is Monday; day 0 was a Thursday. */
  function WeekDay(day: int): (w: int)
    ensures 0 <= w < 7
  {
    (day + 4) % 7
  }

  lemma WeekDayNext(day: int)
    ensures WeekDay(day + 1) == (WeekDay(day) + 1) % 7
  {
  }

  /** date-fns `startOfWeek(day, { weekStartsOn })`. */
  function StartOfWeek(day: int, weekStartsOn: int): (r: int)
    requires 0 <= weekStartsOn < 7
    ensures r <= day < r + 7
    ensures WeekDay(r) == weekStartsOn
  {
    var w := WeekDay(day);
    var diff := (if w < weekStartsOn then 7 else 0) + w - weekStartsOn;
    ShiftWeekDay(day, -diff);
    day - diff
  }

  /** date-fns `endOfWeek(day, { weekStartsOn })`, as a day. */
  function EndOfWeek(day: int, weekStartsOn: int): (r: int)
    requires 0 <= weekStartsOn < 7
    ensures day <= r < day + 7
    ensures WeekDay(r) == (weekStartsOn + 6) % 7
  {
    var w := WeekDay(day);
    var diff := (if w < weekStartsOn then -7 else 0) + 6 - (w - weekStartsOn);
    ShiftWeekDay(day, diff);
    day + diff
  }

  lemma ShiftWeekDay(day: int, k: int)
    ensures WeekDay(day + k) == (WeekDay(day) + k) % 7
  {
  }
}
